=== FILE: README.md ===
# mini-six-ren in Dafny

A verified model of the calculating core of mini-six-ren. mini-six-ren is a Python
divination tool with three front ends:

- **Xiao Liu Ren (小六壬, three transmissions).** Three numbers are counted round a ring of
  nine symbols. Each adjacent pair of the resulting symbols is labelled 生 (generates),
  克 (overcomes) or 无 (neither) from the five-element links of their elements.
- **Four Pillars (八字).** A date and hour are mapped to four stem+branch pillars by
  modular formulas. From these the tool derives:
  - the element tally, the missing elements, and the helping and weakening elements;
  - the zodiac animal and the detailed element of the day master;
  - the day-master (yin/yang) reading and the spouse-palace reading.
- **Input checks of the command-line and web front ends.** Three numbers, a date and
  time, or three Chinese characters are turned into the three counts.

Modules, one per concern:

| file | module | models |
|---|---|---|
| wrappers.dfy | Wrappers | `Option`, `Result` and the Python exceptions (IndexError, KeyError, ValueError) the code raises on malformed input |
| elements.dfy | Elements | the records of the five-element registry that the calculators read; the canonical cycles 木→火→土→金→水 and 金→木→土→水→火 |
| lists.dfy | Lists | `list.index` and list comprehensions with a filter |
| text.dfy | Text | `str.join`, `str.strip`, `str(n)`, the CJK range test |
| hand_technique.dfy | HandTechnique | `__calculate_symbol`, `__generate_prediction`, `__is_generating`, `__is_overcoming`, `__get_relations` |
| five_elements_utils.dfy | FiveElementsUtils | `WUXING`, `build_orders`, `get_wuxing`, `analyze_wuxing`, `analyze_missing_wuxing`, `get_supporting_elements`, `get_weakening_elements` |
| calendar.dfy | Calendar | `calculate_bazi`, and the zodiac and detailed-element look-ups of `format_bazi_output` |
| bazi_calculator.dfy | BaziCalculator | `get_chinese_year`, `analyze_day_master_strength`, `analyze_spouse_palace` |
| web_validation.dfy | WebValidation | `_validate_numbers`, `_validate_date_time`, `_validate_chinese` |
| cli_validation.dfy | CliValidation | `validate_chinese_chars` and the date-mode hour number |

Modelling choices:

- Each registry is loaded from a data file that is not part of this model.
  - Where the code depends on a registry, it is a parameter (`seq<ElementInfo>`, `seq<Symbol>`).
  - `CanonicalElements` is the registry whose links follow the canonical cycles. It is used for the lemmas about concrete element names.
- Python's `%` with a positive divisor is Dafny's Euclidean `%`. `//` on the non-negative operands used here is Dafny's `/`.
- `analyze_wuxing` and `WUXING` appear twice in the source, in `src/utils/five_elements_utils.py` and `src/utils/calendar_converter.py`. `calculate_bazi` also appears twice, in `src/utils/calendar_converter.py` and `src/utils/bazi_calculator.py`. `WUXING` and `calculate_bazi` are identical in both places. The two `analyze_wuxing` bodies (src/utils/calendar_converter.py:55-82 and src/utils/five_elements_utils.py:49-74) are the same code apart from comments, so one model stands for both copies of each. One of those comments is wrong: src/utils/calendar_converter.py:71 labels the `(day_index + 2) % 5` entry 克我者 (the element that overcomes the day element), but that index is the element the day element overcomes; `FiveElementsUtils.HelpingWeakeningMeaning` states this.
- Dictionary and string look-ups that can fail return a `Result` whose error is the exception Python raises. No precondition excludes them.

## Model

Functions without a contract of their own are covered by the rows of the members that state their meaning: `HandTechnique.CalculateSymbol` (`__calculate_symbol`) by `HandTechnique.EndPosition`, `HandTechnique.IsGenerating` and `HandTechnique.IsOvercoming` by `HandTechnique.Relation`, and `FiveElementsUtils.Missing` by `FiveElementsUtils.MissingInKeyOrder` and `FiveElementsUtils.MissingMembers`.

| member | source | states |
|---|---|---|
| HandTechnique.EndPosition | src/hand_technique.py:23-24 | for every start and every step count, negative ones included, the end cell lies in [0, 8] and is congruent to `start + steps - 1` modulo 9 |
| HandTechnique.OneStepStaysPut | src/hand_technique.py:23-25 | a count of one lands on the start cell |
| HandTechnique.RingPeriod | src/hand_technique.py:24 | counts that differ by 9 pick the same symbol |
| HandTechnique.GeneratePrediction | src/hand_technique.py:28-32 | exactly three symbols, in stage order, at the cells `(n1-1)%9`, `(n1+n2-2)%9` and `(n1+n2+n3-3)%9` |
| HandTechnique.PredictionChains | src/hand_technique.py:29-31 | the second count starts where the first ended, and the third where the second ended; the prediction is that chain of counts |
| HandTechnique.Relation | src/hand_technique.py:69-74 | the label is in {生, 克, 无}: 生 iff the first element's `generates` names the second; 克 iff it does not and `overcomes` does; 无 iff neither does |
| HandTechnique.GetRelations | src/hand_technique.py:77-87 | exactly two labels, label i being the relation of symbol i to symbol i+1 |
| HandTechnique.CanonicalRelation | src/hand_technique.py:77-87 | on the canonical registry: 生 iff the second element is one step on in 木火土金水, 克 iff two steps on, 无 otherwise; the two links never match together |
| FiveElementsUtils.WuxingValues | src/utils/five_elements_utils.py:4-10 | every value of WUXING is one of the five elements |
| Calendar.WuxingKeys | src/utils/calendar_converter.py:7-13 | WUXING has a key for exactly the ten stems and the twelve branches |
| FiveElementsUtils.LookupName | src/utils/five_elements_utils.py:24 | the name-keyed dictionary gives a record of the registry carrying the name; it gives KeyError iff no record carries the name |
| FiveElementsUtils.LookupNameLastWins | src/utils/five_elements_utils.py:24 | when names repeat, the record found is the one at the last position carrying the name |
| FiveElementsUtils.FollowLinks | src/utils/five_elements_utils.py:27-36 | one loop of build_orders returns the walk along the link, or KeyError at the first name without a record |
| FiveElementsUtils.BuildOrders | src/utils/five_elements_utils.py:21-38 | build_orders returns the two walks from the first record's name, IndexError on an empty registry, KeyError on a dangling link |
| FiveElementsUtils.WalkShape | src/utils/five_elements_utils.py:28-30 | a walk of k steps has k entries, starts at its start, and each entry's link names the next |
| FiveElementsUtils.WalkDefined | src/utils/five_elements_utils.py:28-36 | in a registry whose links all name records, no lookup of build_orders fails |
| FiveElementsUtils.OrdersShape | src/utils/five_elements_utils.py:21-38 | IndexError iff the registry is empty; success on every non-empty closed registry; on success both orders have one entry per record, both start at the first record's name, and each entry links to the next |
| FiveElementsUtils.CanonicalOrders | src/utils/five_elements_utils.py:21-40 | on the canonical registry the orders are 木火土金水 and 木土水火金, and both walks close into cycles |
| FiveElementsUtils.ChainWalk | src/utils/five_elements_utils.py:28-30 | conversely, a list whose entries link one to the next is the walk from its first entry |
| FiveElementsUtils.CycleNeighbours | src/utils/five_elements_utils.py:101 | in a closed order, the entries at `(j-1)%n` and `(j+1)%n` are the link-neighbours of entry j |
| FiveElementsUtils.GetSupportingElements | src/utils/five_elements_utils.py:99-106 | ValueError iff the day element is not in the order; otherwise two elements, the second being the day element, and the two-line description naming the first as the one that generates the day element (生我者) and the day element as the day master (同我者) |
| FiveElementsUtils.SupportingElementGenerates | src/utils/five_elements_utils.py:99-103 | on a closed generation order, the first supporting element generates the day element |
| FiveElementsUtils.GetWeakeningElements | src/utils/five_elements_utils.py:108-121 | ValueError iff the day element is missing from either order; otherwise three elements: one from the overcoming order, one from the generation order, then the day element, and the three-line description: the first overcomes the day element (克我者), the day element generates the second (我生者), and the day element drains itself (耗泄者) |
| FiveElementsUtils.WeakeningElementsMeaning | src/utils/five_elements_utils.py:108-114 | on closed orders, the first weakening element overcomes the day element and the day element generates the second |
| FiveElementsUtils.GetWeakeningAt | src/utils/five_elements_utils.py:108-114 | on the canonical orders, the list is [three on, one on, the day element] along 木火土金水 |
| FiveElementsUtils.GetWuxing | src/utils/five_elements_utils.py:46-47 | succeeds iff the pillar has two characters that are both WUXING keys, giving their two elements; otherwise IndexError when the pillar is too short at the character read, KeyError when that character is not a WUXING key, in the order stem length, stem key, branch length, branch key |
| FiveElementsUtils.PillarElements | src/utils/five_elements_utils.py:51-53 | on success, two elements per pillar, each one of the five |
| FiveElementsUtils.PillarElementsMeaning | src/utils/five_elements_utils.py:51-53 | entries 2i and 2i+1 are the elements of pillar i's stem and branch |
| FiveElementsUtils.PillarElementsStep | src/utils/five_elements_utils.py:51-53 | one loop step consumes one pillar, or stops with that pillar's error |
| FiveElementsUtils.CountZero | src/utils/five_elements_utils.py:67 | an element is counted zero times iff it does not occur |
| FiveElementsUtils.Tally | src/utils/five_elements_utils.py:50-53 | the tally always holds the five element keys |
| FiveElementsUtils.TallyCounts | src/utils/five_elements_utils.py:50-53 | the tally has exactly the five keys, each mapped to its element's number of occurrences |
| FiveElementsUtils.TallyStep | src/utils/five_elements_utils.py:52-53 | one `+= 1` adds one to that element's count and changes nothing else |
| FiveElementsUtils.TallyTotal | src/utils/five_elements_utils.py:50-53 | the counts add up to the number of characters read |
| FiveElementsUtils.CountTotalBump | src/utils/five_elements_utils.py:52-53 | one `+= 1` adds one to the total |
| FiveElementsUtils.ZeroKeys | src/utils/five_elements_utils.py:67 | the comprehension keeps exactly the keys with count 0, without repeats when the keys have none |
| FiveElementsUtils.ZeroKeysAppend | src/utils/five_elements_utils.py:67 | the comprehension over two runs of keys is the comprehension over each run in turn, so the kept keys stay in key order |
| FiveElementsUtils.ZeroKeysSingle | src/utils/five_elements_utils.py:67 | one key is kept iff its count is 0 |
| FiveElementsUtils.ZeroKeysFive | src/utils/five_elements_utils.py:67 | over five keys the kept keys are each zero-count key in turn |
| FiveElementsUtils.MissingInKeyOrder | src/utils/five_elements_utils.py:50-67 | `missing` (the comprehension of line 67 over the dictionary of line 50) is the zero-count elements in the dictionary's key order 金木水火土 |
| FiveElementsUtils.MissingMembers | src/utils/five_elements_utils.py:67 | an element is missing iff it does not occur among the chart's elements |
| FiveElementsUtils.MissingCount | src/utils/five_elements_utils.py:67 | the number of missing elements is five minus the number of distinct elements present |
| FiveElementsUtils.Helping | src/utils/five_elements_utils.py:57-60 | two elements: the day element, then the one that precedes it in 木火土金水 |
| FiveElementsUtils.Weakening | src/utils/five_elements_utils.py:61-65 | three elements, all of the five, the last being the day element |
| FiveElementsUtils.AnalyzeWuxing | src/utils/five_elements_utils.py:49-74 | the error of the first malformed pillar, or the tally, helping and weakening of the day stem's element, and the missing elements, all as the reference functions give them |
| FiveElementsUtils.DayElement | src/utils/five_elements_utils.py:55 | after the loop, eight elements were read and the day stem's element is the fifth |
| FiveElementsUtils.CountsSumToEight | src/utils/five_elements_utils.py:50-53 | for every four-pillar chart analyze_wuxing accepts, the counts add up to 8 |
| FiveElementsUtils.HelpingWeakeningMeaning | src/utils/five_elements_utils.py:57-65 | on the canonical registry, the second helping element generates the day element and the day element generates the first weakening element; the second weakening element is one the day element overcomes, not its overcomer |
| FiveElementsUtils.HelpingWeakeningAt | src/utils/five_elements_utils.py:59-65 | helping and weakening as positions round 木火土金水: (i+4)%5 helps; (i+1)%5 and (i+2)%5 weaken |
| FiveElementsUtils.WeakeningTwinsDisagree | src/utils/five_elements_utils.py:61-65 | on the canonical orders, get_weakening_elements lists first the day element's overcomer, which analyze_wuxing never lists; the two lists differ for every day element |
| FiveElementsUtils.ImpactsOf | src/utils/five_elements_utils.py:77-87 | every table entry whose element is missing contributes its sentence, and only such entries do |
| FiveElementsUtils.ImpactsOfAppend | src/utils/five_elements_utils.py:77-87 | the sentences of two runs of tests are those of the first run followed by those of the second |
| FiveElementsUtils.ImpactsOfSingle | src/utils/five_elements_utils.py:78-79 | one test contributes its sentence iff its element is missing |
| FiveElementsUtils.ImpactsInOrder | src/utils/five_elements_utils.py:77-87 | one sentence per missing element, in the order of the tests 木, 火, 土, 金, 水 |
| FiveElementsUtils.AnalyzeMissingWuxing | src/utils/five_elements_utils.py:76-89 | the 'complete' text iff no element is missing; otherwise the missing elements' sentences in the order 木火土金水, joined by "；"; the gender is not used |
| FiveElementsUtils.ImpactsEmpty | src/utils/five_elements_utils.py:77-89 | no sentence is emitted iff no element is missing |
| FiveElementsUtils.ImpactsNotComplete | src/utils/five_elements_utils.py:89 | a joined list of sentences is never the 'complete' text |
| Calendar.Indices | src/utils/calendar_converter.py:31-44 | all eight stem and branch indices are in range |
| Calendar.CalculateBazi | src/utils/calendar_converter.py:28-53 | every pillar is one stem followed by one branch |
| Calendar.PillarIndexOf | src/utils/calendar_converter.py:85 | `list.index` of a pillar's characters gives back the indices it was built from |
| Calendar.IndicesParity | src/utils/calendar_converter.py:31-44 | the year, day and time indices pair up with equal parity; the month's two indices always differ in parity |
| Calendar.PillarParity | src/utils/calendar_converter.py:46-51 | the year, day and time pillars have stem and branch of equal parity; the month pillar never does |
| Calendar.ComputedChartAnalyzes | src/utils/calendar_converter.py:55-59 | every computed chart passes analyze_wuxing's look-ups, with counts adding up to 8 |
| Calendar.Zodiac | src/utils/calendar_converter.py:85 | an animal iff the year pillar's second character is a branch; otherwise IndexError when the pillar is shorter than 2, and ValueError when that character is not a branch |
| Calendar.ZodiacOfComputedChart | src/utils/calendar_converter.py:85 | on a computed chart the animal is the one at `(year-4)%12`, the year branch's index |
| Calendar.DetailedElement | src/utils/calendar_converter.py:86-88 | succeeds iff the day stem is a WUXING key; a day master outside the table gives the stem's element followed by 命; one inside it has stem 己 and element 土, and gives the table's three-character name of that earth, ending in 土 |
| Calendar.DetailedKeysReached | src/utils/calendar_converter.py:39-40 | a computed day pillar found in the table always has an odd branch (丑卯巳未酉亥), so six of the twelve table entries are never reached |
| BaziCalculator.GetChineseYear | src/utils/bazi_calculator.py:36-40 | five characters: stem, branch, `[`, animal, `]` |
| BaziCalculator.ChineseYearMatchesChart | src/utils/bazi_calculator.py:12-13 | the first two characters are the chart's year pillar, and the animal is the chart's zodiac animal |
| BaziCalculator.YangIffEvenIndex | src/utils/bazi_calculator.py:44 | a stem is yang iff its index among the ten stems is even |
| BaziCalculator.ComputedDayMasterYang | src/utils/bazi_calculator.py:20 | on a computed chart the day master is yang iff `5*year + 6*month + day` is even |
| BaziCalculator.AnalyzeDayMasterStrength | src/utils/bazi_calculator.py:42-55 | IndexError iff the day pillar is empty; otherwise each of the four readings is returned iff its (gender is 男, stem is yang) combination holds |
| BaziCalculator.OnlyMaleIsMale | src/utils/bazi_calculator.py:46-51 | every gender other than 男, 'M' included, gets the reading of 女 |
| BaziCalculator.GroupsPartitionBranches | src/utils/bazi_calculator.py:65-70 | the three groups hold exactly the twelve branches, and no branch is in two groups |
| BaziCalculator.AnalyzeSpousePalace | src/utils/bazi_calculator.py:57-72 | IndexError iff the chosen pillar (day for 男, year otherwise) is shorter than 2; otherwise the prefix naming the palace, then the group reading, which is non-empty iff the palace is a branch |
| BaziCalculator.ComputedSpousePalace | src/utils/bazi_calculator.py:57-72 | on a computed chart the reading succeeds and always carries one of the three group readings |
| WebValidation.ValidateNumbers | src/web.py:54-63 | accepted iff all three parse and lie in [1, 9], and then returned unchanged, in order, with an empty message; the parse message iff one field does not parse; otherwise the range message; the list is empty on refusal |
| WebValidation.DateNumbers | src/web.py:101-103 | three numbers in [1, 9], the third in [1, 6] |
| WebValidation.DateNumbersPeriodic | src/web.py:101-103 | nine months, nine days or twelve hours later give the same numbers; a month or day in 1..9 is its own number |
| WebValidation.ValidateDateTime | src/web.py:85-107 | accepted iff both strings are non-empty and parse, giving the date numbers; the empty-input message iff a string is empty; otherwise the format message |
| WebValidation.CjkChars | src/web.py:71 | keeps exactly the characters in U+4E00..U+9FFF, and no more characters than the text has |
| WebValidation.CjkCharsInOrder | src/web.py:71 | the kept characters of a concatenation are each part's kept characters in turn; a text of CJK characters is kept whole |
| WebValidation.ValidateChinese | src/web.py:65-83 | accepted iff there are at least three CJK characters and the stroke look-up of the first three gives a non-empty list, which is returned; the too-few message iff fewer than three CJK characters; with three or more, an empty look-up gives "无法计算汉字笔画数" and a raised exception gives "笔画计算错误: " followed by its text |
| Lists.IndexOf | src/utils/five_elements_utils.py:100 | `list.index`: ValueError iff absent, otherwise the first position holding the value |
| Lists.KeepMembers | src/cli.py:346 | a filtering comprehension keeps exactly the entries satisfying the test |
| Lists.KeepAppend | src/cli.py:346 | filtering a concatenation filters each part in turn, so order is kept |
| Text.Join | src/cli.py:347 | `str.join`: empty for no parts, the part itself for one part, and it always starts with the first part |
| Text.StripLeftRemovesSpace | src/cli.py:341 | the left strip keeps a suffix and removes only whitespace |
| Text.StripRightRemovesSpace | src/cli.py:341 | the right strip keeps a prefix and removes only whitespace |
| Text.Strip | src/cli.py:341 | `str.strip` never makes a string longer, and what it keeps neither starts nor ends with whitespace |
| Text.StripIsSlice | src/cli.py:341 | `str.strip` keeps a contiguous slice of its input, and everything outside the slice is whitespace |
| Text.NatToStringRoundTrip | src/cli.py:344 | the decimal rendering of a count reads back as that count |
| CliValidation.SplitFrom | src/cli.py:341 | `re.split` gives one more piece than there are separators |
| CliValidation.SplitKeepsText | src/cli.py:341 | the pieces, written one after another, are the input without its separators |
| CliValidation.SplitPiecesClean | src/cli.py:341 | no piece holds a separator |
| CliValidation.SplitWhole | src/cli.py:341 | a text without separators is a single piece |
| CliValidation.SplitAtSeparator | src/cli.py:341 | splitting at a separator joins the pieces before it to the pieces after it |
| CliValidation.StripPiecesClean | src/cli.py:341 | every piece kept is non-empty and neither starts nor ends with whitespace |
| CliValidation.ValidateChineseChars | src/cli.py:340-352 | accepted iff there are exactly three pieces, each a single CJK character, and then the pieces come back in input order; otherwise count, then length, then range decides the message, which lists the offending pieces |
| CliValidation.ThreeCharsAccepted | src/cli.py:340-352 | three CJK characters separated by either comma are accepted as themselves, in order |
| CliValidation.StripSingles | src/cli.py:341 | pieces that are single CJK characters survive the stripping unchanged |
| CliValidation.CountMessageNamesCount | src/cli.py:344 | the count refusal names the actual number of pieces |
| CliValidation.HourNumber | src/cli.py:439 | the date-mode third number lies in [1, 12] for every hour |
| CliValidation.HourNumberIsTimeBranch | src/cli.py:439 | for every hour, the number is one more than the chart's time-branch index (子 for 23:00-00:59, 丑 for 01:00-02:59, …) |

## Left out

- The AI interpretation is not modelled because it is network I/O with streamed answers. This covers `interpret_prediction` and its prompt in src/hand_technique.py, all of src/ai_agent.py, and its copy of the relation labelling (`_get_relations`, the same code as `__get_relations`).
- `solar_to_lunar` is not modelled. It calls the external `lunardate` library, and the lunar month and day it yields are inputs to the rest.
- The stroke dictionary (src/utils/stroke_count.py) reads a file from disk. `WebValidation.ValidateChinese` takes the look-up as a function parameter whose outcome is a list of counts or the text of a raised exception.
- The registry loaders (src/five_elements.py, src/symbols.py and the other JSON loaders) read data files that are not part of this model. Their records are parameters; only the name, `generates` and `overcomes` fields are kept.
- HandTechnique.Symbol always carries an element. A symbol whose element name matches no registry record gets `None` at src/symbols.py:12; that symbol is not modelled, and `__get_relations` would fail on it.
- HandTechnique.CalculateSymbol requires exactly nine symbols, the size of the ring the arithmetic assumes. The registry's real length is not known here.
- HandTechnique.GetRelations requires at least three symbols. The source only calls it with the three predicted symbols.
- The UI is not modelled: menus, panels, colours, the web layout, tasks, and `__format_prediction`. The prints in five_elements_utils.py, including those run at import time, are left out as well.
- In `format_bazi_output`, only the zodiac and detailed-element look-ups are modelled. The remaining fields are string formatting of values modelled elsewhere.
- `get_element_details` and the print helpers of five_elements_utils.py are not modelled. They only read descriptive registry fields or print.
- Python's `int()` and `datetime.strptime` are library parsers, so their outcomes are `Option` parameters:
  - `WebValidation.ValidateNumbers` receives each field's parsed value, or None for a ValueError.
  - `WebValidation.ValidateDateTime` receives the parsed month, day and hour, or None.
- The demo scripts src/hello0906.py and src/test.py are not modelled.
- Two call sites cannot run as written and are not modelled:
  - src/cli.py:463 passes five arguments to the four-parameter `predict`;
  - src/web.py:168 calls a `predict_async` that does not exist.
- `re.split` is modelled only for the character class `[,，]` that `validate_chinese_chars` uses. `str.isspace` is modelled as the fixed set of Unicode whitespace code points.
- The counts of `FiveElementsUtils.AnalyzeWuxing` are a `map`, which has no key order. The source's `wuxing_count` dictionary is printed in its insertion order 金木水火土. That order is kept only in `FiveElementsUtils.CountKeys`, through which `FiveElementsUtils.Missing` lists the missing elements.
- Calendar.CalculateBazi takes the minute, as the source does, but does not use it.
- FiveElementsUtils.AnalyzeWuxing, BaziCalculator.AnalyzeDayMasterStrength and BaziCalculator.AnalyzeSpousePalace take a chart as the four-key dictionary `{'year', 'month', 'day', 'time'}` that `calculate_bazi` builds, the only chart the source passes them. The source accepts any dictionary: `analyze_wuxing` reads however many values it holds, in insertion order, so a three-pillar chart with a `'day'` key gives counts adding up to 6. A dictionary without the key read raises KeyError. Neither case is modelled.

=== FILE: bazi_calculator.dfy ===
/**
 * The chart readings of src/utils/bazi_calculator.py: the stem-branch name of
 * a year, the yin/yang reading of the day master and the spouse-palace
 * reading. The module's own `calculate_bazi` is the same computation as
 * Calendar.CalculateBazi, which stands for both.
 */
module BaziCalculator {
  import opened Wrappers
  import opened Lists
  import opened FiveElementsUtils
  import opened Calendar

  /** `get_chinese_year`: stem, branch and animal of `year - 4`, written `{stem}{branch}[{animal}]`. */
  function GetChineseYear(year: int): (s: string)
    ensures |s| == 5 && s[2] == '[' && s[4] == ']'
    ensures s[0] in HeavenlyStems && s[1] in EarthlyBranches && s[3] in ZodiacAnimals
  {
    [HeavenlyStems[(year - 4) % 10], EarthlyBranches[(year - 4) % 12], '[', ZodiacAnimals[(year - 4) % 12], ']']
  }

  /**
   * The name of a year agrees with the chart of any date in it: its first two
   * characters are the year pillar, and its animal is the zodiac animal the
   * chart's year branch selects.
   */
  lemma ChineseYearMatchesChart(year: int, month: int, day: int, hour: int, minute: int)
    ensures GetChineseYear(year)[..2] == CalculateBazi(year, month, day, hour, minute).year
    ensures Zodiac(CalculateBazi(year, month, day, hour, minute)) == Ok(GetChineseYear(year)[3])
  {
    var ix := Indices(year, month, day, hour);
    assert ix.yearStem == (year - 4) % 10 && ix.yearBranch == (year - 4) % 12;
    var s := GetChineseYear(year);
    assert s[..2] == Pillar(ix.yearStem, ix.yearBranch);
    ZodiacOfComputedChart(year, month, day, hour, minute);
  }

  /** The yang stems 甲丙戊庚壬. */
  const YangStems: seq<char> := ['甲', '丙', '戊', '庚', '壬']

  /** `day_master in "甲丙戊庚壬"`. */
  predicate IsYang(c: char)
  {
    c in YangStems
  }

  /** The yang stems are exactly the stems at even indices. */
  lemma YangIffEvenIndex(i: nat)
    requires i < 10
    ensures IsYang(HeavenlyStems[i]) <==> i % 2 == 0
  {
  }

  /** On a computed chart the day master is yang exactly when the day base `5 * year + 6 * month + day` is even. */
  lemma {:induction false} ComputedDayMasterYang(year: int, month: int, day: int, hour: int, minute: int)
    ensures IsYang(CalculateBazi(year, month, day, hour, minute).day[0]) <==> (year * 5 + month * 6 + day) % 2 == 0
  {
    var ix := Indices(year, month, day, hour);
    var dayBase := year * 5 + month * 6 + day;
    assert ix.dayStem == dayBase % 10;
    ResidueParity(dayBase);
    YangIffEvenIndex(ix.dayStem);
  }

  const MaleYang: string := "日主阳刚，有利于男性发展"
  const MaleYin: string := "日主阴柔，男性可能需要在事业上更加努力"
  const FemaleYang: string := "日主阳刚，女性可能在事业上较为顺利，但需要注意家庭平衡"
  const FemaleYin: string := "日主阴柔，有利于女性的人际关系和家庭和谐"

  /** The gender string the readings treat as male; every other string reads as female. */
  const Male: string := "男"

  /**
   * `analyze_day_master_strength`: one of four fixed readings chosen by
   * whether the gender is exactly 男 and whether the day stem is yang.
   */
  function AnalyzeDayMasterStrength(b: Bazi, gender: string): (r: Result<string>)
    ensures r.Err? <==> b.day == []
    ensures r.Err? ==> r.error == IndexError
    ensures r.Ok? ==> (r.value == MaleYang <==> gender == Male && IsYang(b.day[0]))
    ensures r.Ok? ==> (r.value == MaleYin <==> gender == Male && !IsYang(b.day[0]))
    ensures r.Ok? ==> (r.value == FemaleYang <==> gender != Male && IsYang(b.day[0]))
    ensures r.Ok? ==> (r.value == FemaleYin <==> gender != Male && !IsYang(b.day[0]))
  {
    if b.day == [] then Err(IndexError)
    else
      var isYang := IsYang(b.day[0]);
      if gender == Male then Ok(if isYang then MaleYang else MaleYin)
      else Ok(if isYang then FemaleYang else FemaleYin)
  }

  /** Any gender string other than 男, 'M' included, gets the same reading as 女. */
  lemma OnlyMaleIsMale(b: Bazi, gender: string)
    requires gender != Male
    ensures AnalyzeDayMasterStrength(b, gender) == AnalyzeDayMasterStrength(b, "女")
    ensures AnalyzeDayMasterStrength(b, "M") == AnalyzeDayMasterStrength(b, "女")
  {
  }

  /** The three branch groups of the spouse-palace reading. */
  const Cardinal: seq<char> := ['子', '午', '卯', '酉']
  const Mobile: seq<char> := ['寅', '申', '巳', '亥']
  const Storage: seq<char> := ['辰', '戌', '丑', '未']

  const CardinalReading: string := "配偶可能性格较为固执但忠诚"
  const MobileReading: string := "配偶可能富有冒险精神和创造力"
  const StorageReading: string := "配偶可能性格温和，注重家庭"

  /** The reading appended for a palace branch; nothing for a character outside the three groups. */
  function PalaceReading(c: char): string
  {
    if c in Cardinal then CardinalReading
    else if c in Mobile then MobileReading
    else if c in Storage then StorageReading
    else ""
  }

  /** The three groups partition the twelve branches: each branch is in exactly one, and they hold nothing else. */
  lemma GroupsPartitionBranches(c: char)
    ensures c in EarthlyBranches <==> c in Cardinal || c in Mobile || c in Storage
    ensures !(c in Cardinal && c in Mobile) && !(c in Cardinal && c in Storage) && !(c in Mobile && c in Storage)
  {
  }

  /** The opening of the reading: where the palace is, and its branch. */
  function PalacePrefix(gender: string, c: char): string
  {
    (if gender == Male then "配偶宫在日支：" else "配偶宫在年柱：") + [c] + "，"
  }

  /**
   * `analyze_spouse_palace`: the palace is the day branch for 男 and the year
   * branch otherwise; the reading is the prefix naming it, then the
   * description of its group.
   */
  function AnalyzeSpousePalace(b: Bazi, gender: string): (r: Result<string>)
    ensures var pillar := if gender == Male then b.day else b.year;
      (r.Err? <==> |pillar| < 2)
      && (r.Err? ==> r.error == IndexError)
      && (r.Ok? ==>
            var prefix := PalacePrefix(gender, pillar[1]);
            |prefix| <= |r.value| && r.value[..|prefix|] == prefix
            && r.value[|prefix|..] == PalaceReading(pillar[1])
            && (r.value[|prefix|..] != "" <==> pillar[1] in EarthlyBranches))
  {
    var pillar := if gender == Male then b.day else b.year;
    if |pillar| < 2 then Err(IndexError)
    else
      var palace := pillar[1];
      GroupsPartitionBranches(palace);
      Ok(PalacePrefix(gender, palace) + PalaceReading(palace))
  }

  /**
   * On a computed chart the reading always succeeds, names the day branch for
   * 男 and the year branch otherwise, and always carries a group description.
   */
  lemma ComputedSpousePalace(year: int, month: int, day: int, hour: int, minute: int, gender: string)
    ensures var b := CalculateBazi(year, month, day, hour, minute);
      var palace := if gender == Male then b.day[1] else b.year[1];
      AnalyzeSpousePalace(b, gender) == Ok(PalacePrefix(gender, palace) + PalaceReading(palace))
      && PalaceReading(palace) in [CardinalReading, MobileReading, StorageReading]
  {
    var b := CalculateBazi(year, month, day, hour, minute);
    assert b.day in Pillars(b) && b.year in Pillars(b);
    var palace := if gender == Male then b.day[1] else b.year[1];
    GroupsPartitionBranches(palace);
  }
}

=== FILE: calendar.dfy ===
/**
 * The simplified Four-Pillars calculation of src/utils/calendar_converter.py
 * (copied verbatim as `calculate_bazi` in src/utils/bazi_calculator.py) and
 * the zodiac and detailed-element look-ups of `format_bazi_output`. Each
 * pillar index is a residue of a linear expression in the date; the pillars
 * are the characters at those indices.
 */
module Calendar {
  import opened Wrappers
  import opened Elements
  import opened Lists
  import opened FiveElementsUtils

  /** The ten heavenly stems, 甲 to 癸. */
  const HeavenlyStems: seq<char> := ['甲', '乙', '丙', '丁', '戊', '己', '庚', '辛', '壬', '癸']

  /** The twelve earthly branches, 子 to 亥. */
  const EarthlyBranches: seq<char> := ['子', '丑', '寅', '卯', '辰', '巳', '午', '未', '申', '酉', '戌', '亥']

  /** The twelve zodiac animals, one per branch in branch order. */
  const ZodiacAnimals: seq<char> := ['鼠', '牛', '虎', '兔', '龙', '蛇', '马', '羊', '猴', '鸡', '狗', '猪']

  /** The pillar with stem `s` and branch `b`. */
  function Pillar(s: nat, b: nat): string
    requires s < 10 && b < 12
  {
    [HeavenlyStems[s], EarthlyBranches[b]]
  }

  /** A pillar as the calculator writes it: one stem followed by one branch. */
  predicate WellFormedPillar(p: string)
  {
    |p| == 2 && p[0] in HeavenlyStems && p[1] in EarthlyBranches
  }

  /** The stem and branch indices of the four pillars, in year, month, day, time order. */
  datatype PillarIndices = PillarIndices(
    yearStem: nat, yearBranch: nat,
    monthStem: nat, monthBranch: nat,
    dayStem: nat, dayBranch: nat,
    timeStem: nat, timeBranch: nat)

  /**
   * The index arithmetic of `calculate_bazi`. The year indices are `year - 4`
   * round the stems and branches; the month branch is `month + 1` and the
   * month stem `2 * yearStem + month`; the day indices share the base
   * `5 * year + 6 * month + day`; the time branch is `(hour + 1) // 2` and the
   * time stem `2 * dayStem + timeBranch`. Every index is in range.
   */
  function Indices(year: int, month: int, day: int, hour: int): (ix: PillarIndices)
    ensures ix.yearStem < 10 && ix.monthStem < 10 && ix.dayStem < 10 && ix.timeStem < 10
    ensures ix.yearBranch < 12 && ix.monthBranch < 12 && ix.dayBranch < 12 && ix.timeBranch < 12
  {
    var yearStem := (year - 4) % 10;
    var dayBase := year * 5 + month * 6 + day;
    var dayStem := dayBase % 10;
    var timeBranch := (hour + 1) / 2 % 12;
    PillarIndices(
      yearStem, (year - 4) % 12,
      (yearStem * 2 + month) % 10, (month + 1) % 12,
      dayStem, dayBase % 12,
      (dayStem * 2 + timeBranch) % 10, timeBranch)
  }

  /**
   * `calculate_bazi`: the four pillars of a date and hour (the minute is not
   * used). Every pillar is one stem followed by one branch.
   */
  function CalculateBazi(year: int, month: int, day: int, hour: int, minute: int): (b: Bazi)
    ensures forall p :: p in Pillars(b) ==> WellFormedPillar(p)
  {
    var ix := Indices(year, month, day, hour);
    Bazi(
      Pillar(ix.yearStem, ix.yearBranch),
      Pillar(ix.monthStem, ix.monthBranch),
      Pillar(ix.dayStem, ix.dayBranch),
      Pillar(ix.timeStem, ix.timeBranch))
  }

  /** The stems and the branches are each free of repeats. */
  lemma StemsBranchesDistinct()
    ensures Distinct(HeavenlyStems) && Distinct(EarthlyBranches)
  {
  }

  /** Reading a pillar back: `list.index` of its characters gives the indices it was built from. */
  lemma {:induction false} PillarIndexOf(s: nat, b: nat)
    requires s < 10 && b < 12
    ensures IndexOf(HeavenlyStems, Pillar(s, b)[0]) == Ok(s)
    ensures IndexOf(EarthlyBranches, Pillar(s, b)[1]) == Ok(b)
  {
    StemsBranchesDistinct();
    IndexOfDistinct(HeavenlyStems, s);
    IndexOfDistinct(EarthlyBranches, b);
  }

  /** The WUXING table has an entry for exactly the ten stems and the twelve branches. */
  lemma WuxingKeys(c: char)
    ensures c in Wuxing <==> c in HeavenlyStems || c in EarthlyBranches
  {
  }

  /** A stem and a branch have the same parity of index, as in every pillar of the sixty-pillar cycle. */
  predicate SameParity(p: string)
    requires WellFormedPillar(p)
  {
    IndexOf(HeavenlyStems, p[0]).value % 2 == IndexOf(EarthlyBranches, p[1]).value % 2
  }

  /** A built pillar has same-parity stem and branch exactly when its two indices have the same parity. */
  lemma PillarSameParity(s: nat, b: nat)
    requires s < 10 && b < 12
    ensures WellFormedPillar(Pillar(s, b))
    ensures SameParity(Pillar(s, b)) <==> s % 2 == b % 2
  {
    PillarIndexOf(s, b);
  }

  /**
   * The year, day and time indices come in same-parity pairs; the month
   * stem follows `month` and the month branch `month + 1`, so their parities
   * always differ.
   */
  lemma {:induction false} IndicesParity(year: int, month: int, day: int, hour: int)
    ensures var ix := Indices(year, month, day, hour);
      ix.yearStem % 2 == ix.yearBranch % 2 && ix.dayStem % 2 == ix.dayBranch % 2
      && ix.timeStem % 2 == ix.timeBranch % 2 && ix.monthStem % 2 != ix.monthBranch % 2
  {
    var ix := Indices(year, month, day, hour);
    var dayBase := year * 5 + month * 6 + day;
    assert ix.dayStem == dayBase % 10 && ix.dayBranch == dayBase % 12;
    ResidueParity(year - 4);
    ResidueParity(dayBase);
    ResidueParity(ix.yearStem * 2 + month);
    ResidueParity(month + 1);
    ResidueParity(ix.dayStem * 2 + ix.timeBranch);
    EvenShift(ix.yearStem, month);
    EvenShift(ix.dayStem, ix.timeBranch);
  }

  /** Adding an even number keeps the parity. */
  lemma EvenShift(k: int, t: int)
    ensures (k * 2 + t) % 2 == t % 2
  {
  }

  /**
   * The year, day and time pillars pair a stem and a branch of the same
   * parity, as every pillar of the sixty-pillar cycle does; the month pillar
   * never does.
   */
  lemma PillarParity(year: int, month: int, day: int, hour: int, minute: int)
    ensures var b := CalculateBazi(year, month, day, hour, minute);
      SameParity(b.year) && SameParity(b.day) && SameParity(b.time) && !SameParity(b.month)
  {
    var ix := Indices(year, month, day, hour);
    IndicesParity(year, month, day, hour);
    PillarSameParity(ix.yearStem, ix.yearBranch);
    PillarSameParity(ix.monthStem, ix.monthBranch);
    PillarSameParity(ix.dayStem, ix.dayBranch);
    PillarSameParity(ix.timeStem, ix.timeBranch);
  }

  /** Taking a residue modulo 10 or 12 keeps the parity. */
  lemma {:induction false} ResidueParity(x: int)
    ensures (x % 10) % 2 == x % 2 && (x % 12) % 2 == x % 2
  {
    var q := x / 10;
    var r := x / 12;
    assert x == 10 * q + x % 10;
    assert x == 12 * r + x % 12;
    assert x % 2 == (2 * (5 * q) + x % 10) % 2;
    assert x % 2 == (2 * (6 * r) + x % 12) % 2;
  }

  /** A built pillar passes get_wuxing. */
  lemma PillarWuxing(s: nat, b: nat)
    requires s < 10 && b < 12
    ensures GetWuxing(Pillar(s, b)).Ok?
  {
    WuxingKeys(HeavenlyStems[s]);
    WuxingKeys(EarthlyBranches[b]);
  }

  /** When every pillar passes get_wuxing, so does the whole list. */
  lemma {:induction false} AllPillarsOk(pillars: seq<string>)
    requires forall i :: 0 <= i < |pillars| ==> GetWuxing(pillars[i]).Ok?
    ensures PillarElements(pillars).Ok?
  {
    if pillars != [] {
      AllPillarsOk(pillars[1..]);
    }
  }

  /** Every pillar the calculator produces goes through analyze_wuxing, which then counts eight characters. */
  lemma ComputedChartAnalyzes(year: int, month: int, day: int, hour: int, minute: int)
    ensures PillarElements(Pillars(CalculateBazi(year, month, day, hour, minute))).Ok?
    ensures CountTotal(Tally(PillarElements(Pillars(CalculateBazi(year, month, day, hour, minute))).value)) == 8
  {
    var ix := Indices(year, month, day, hour);
    PillarWuxing(ix.yearStem, ix.yearBranch);
    PillarWuxing(ix.monthStem, ix.monthBranch);
    PillarWuxing(ix.dayStem, ix.dayBranch);
    PillarWuxing(ix.timeStem, ix.timeBranch);
    var b := CalculateBazi(year, month, day, hour, minute);
    AllPillarsOk(Pillars(b));
    CountsSumToEight(b);
  }

  /** The zodiac animal of the year branch: `ZODIAC_ANIMALS[EARTHLY_BRANCHES.index(bazi['year'][1])]`. */
  function Zodiac(b: Bazi): (r: Result<char>)
    ensures r.Ok? ==> r.value in ZodiacAnimals
    ensures r.Ok? <==> |b.year| >= 2 && b.year[1] in EarthlyBranches
    ensures r.Err? ==> r.error == (if |b.year| < 2 then IndexError else ValueError)
  {
    if |b.year| < 2 then Err(IndexError)
    else
      match IndexOf(EarthlyBranches, b.year[1])
      case Err(e) => Err(e)
      case Ok(i) => Ok(ZodiacAnimals[i])
  }

  /** On a computed chart the animal sits at the same index as the year branch, `(year - 4) % 12`. */
  lemma ZodiacOfComputedChart(year: int, month: int, day: int, hour: int, minute: int)
    ensures Zodiac(CalculateBazi(year, month, day, hour, minute)) == Ok(ZodiacAnimals[(year - 4) % 12])
  {
    var ix := Indices(year, month, day, hour);
    PillarIndexOf(ix.yearStem, ix.yearBranch);
  }

  /** DETAILED_WUXING: the named earths of the 己 pillars. */
  const DetailedWuxing: map<string, string> := map[
    "己子" := "壁上土", "己丑" := "壁上土",
    "己寅" := "城墙土", "己卯" := "城墙土",
    "己辰" := "大驿土", "己巳" := "大驿土",
    "己午" := "路旁土", "己未" := "路旁土",
    "己申" := "大驿土", "己酉" := "大驿土",
    "己戌" := "平地土", "己亥" := "平地土"
  ]

  /**
   * The detailed element of the day master: the table entry for the first two
   * characters of the day pillar, or else the day stem's element followed by 命.
   */
  function DetailedElement(b: Bazi): (r: Result<string>)
    ensures r.Ok? <==> |b.day| >= 1 && b.day[0] in Wuxing
    ensures r.Ok? && b.day[..if |b.day| < 2 then |b.day| else 2] !in DetailedWuxing ==>
      r.value == Wuxing[b.day[0]] + "命"
    ensures r.Ok? && b.day[..if |b.day| < 2 then |b.day| else 2] in DetailedWuxing ==>
      b.day[0] == '己' && Wuxing[b.day[0]] == Earth &&
      r.value == DetailedWuxing[b.day[..2]] && |r.value| == 3 && r.value[2] == '土'
  {
    if |b.day| < 1 then Err(IndexError)
    else if b.day[0] !in Wuxing then Err(KeyError)
    else
      var dayMaster := b.day[..if |b.day| < 2 then |b.day| else 2];
      var dayElement := Wuxing[b.day[0]];
      Ok(if dayMaster in DetailedWuxing then DetailedWuxing[dayMaster] else dayElement + "命")
  }

  /**
   * A computed day pillar with stem 己 has an odd branch, so of the twelve
   * table keys only 己丑, 己卯, 己巳, 己未, 己酉 and 己亥 can ever be looked up.
   */
  lemma DetailedKeysReached(year: int, month: int, day: int, hour: int, minute: int)
    ensures var b := CalculateBazi(year, month, day, hour, minute);
      b.day in DetailedWuxing ==> b.day[1] in OddBranches
  {
    var ix := Indices(year, month, day, hour);
    IndicesParity(year, month, day, hour);
    DayMasterKey(ix.dayStem, ix.dayBranch);
  }

  /** The branches at odd indices. */
  const OddBranches: seq<char> := ['丑', '卯', '巳', '未', '酉', '亥']

  /** A pillar is a table key only when its stem is 己, the stem at index 5; then an odd branch index gives an odd branch. */
  lemma DayMasterKey(s: nat, b: nat)
    requires s < 10 && b < 12
    ensures Pillar(s, b) in DetailedWuxing ==> s == 5
    ensures s == 5 && b % 2 == 1 ==> Pillar(s, b)[1] in OddBranches
  {
    if Pillar(s, b) in DetailedWuxing {
      assert Pillar(s, b)[0] == '己';
      StemsBranchesDistinct();
    }
  }
}

=== FILE: cli_validation.dfy ===
/**
 * The input handling of the command-line front end (src/cli.py) that feeds
 * the three-transmission technique: the check of three comma-separated
 * characters, and the hour number of the date mode.
 */
module CliValidation {
  import opened Lists
  import opened Text
  import Calendar

  /** The two separators the character prompt accepts: the ASCII comma and the full-width comma. */
  predicate IsSeparator(c: char)
  {
    c == ',' || c == '，'
  }

  /** A piece holds no separator. */
  predicate NoSeparator(p: string)
  {
    forall k :: 0 <= k < |p| ==> !IsSeparator(p[k])
  }

  /** Not a separator (as a function value for Keep). */
  predicate NotSeparator(c: char)
  {
    !IsSeparator(c)
  }

  /** How many separators `s` holds. */
  function SeparatorCount(s: string): nat
  {
    if s == [] then 0 else (if IsSeparator(s[0]) then 1 else 0) + SeparatorCount(s[1..])
  }

  /**
   * The pieces of `s` when the piece being read so far is `current`: each
   * separator closes the current piece and opens an empty one.
   */
  function SplitFrom(s: string, current: string): (r: seq<string>)
    ensures |r| == SeparatorCount(s) + 1
  {
    if s == [] then [current]
    else if IsSeparator(s[0]) then [current] + SplitFrom(s[1..], "")
    else SplitFrom(s[1..], current + [s[0]])
  }

  /** `re.split(r'[,，]', s)`: the pieces between separators, one more piece than there are separators. */
  function Split(s: string): seq<string>
  {
    SplitFrom(s, "")
  }

  /** The pieces written one after another. */
  function Concat(pieces: seq<string>): string
  {
    if pieces == [] then "" else pieces[0] + Concat(pieces[1..])
  }

  /**
   * Splitting loses only the separators: the pieces, written one after
   * another, are the input's other characters in their order.
   */
  lemma {:induction false} SplitKeepsText(s: string, current: string)
    ensures Concat(SplitFrom(s, current)) == current + Keep(s, NotSeparator)
  {
    if s == [] {
      assert Concat([current]) == current + Concat([]);
      assert current + [] == current;
    } else if IsSeparator(s[0]) {
      var rest := SplitFrom(s[1..], "");
      SplitKeepsText(s[1..], "");
      assert Keep(s, NotSeparator) == Keep(s[1..], NotSeparator);
      ConcatCons(current, rest);
    } else {
      var longer := current + [s[0]];
      var kept := Keep(s[1..], NotSeparator);
      SplitKeepsText(s[1..], longer);
      assert SplitFrom(s, current) == SplitFrom(s[1..], longer);
      assert NotSeparator(s[0]);
      assert Keep(s, NotSeparator) == [s[0]] + kept;
      AppendAssoc(current, [s[0]], kept);
    }
  }

  /** Concatenation of sequences is associative. */
  lemma AppendAssoc<T>(a: seq<T>, b: seq<T>, c: seq<T>)
    ensures a + b + c == a + (b + c)
  {
  }

  /** Writing out a piece in front of other pieces. */
  lemma ConcatCons(piece: string, rest: seq<string>)
    ensures Concat([piece] + rest) == piece + Concat(rest)
  {
    assert ([piece] + rest)[1..] == rest;
  }

  /** No piece holds a separator. */
  lemma {:induction false} SplitPiecesClean(s: string, current: string)
    requires NoSeparator(current)
    ensures forall i :: 0 <= i < |SplitFrom(s, current)| ==> NoSeparator(SplitFrom(s, current)[i])
  {
    if s != [] {
      if IsSeparator(s[0]) {
        SplitPiecesClean(s[1..], "");
      } else {
        SplitPiecesClean(s[1..], current + [s[0]]);
      }
    }
  }

  /** A text without separators is read whole into the current piece. */
  lemma {:induction false} SplitWhole(q: string, current: string)
    requires NoSeparator(q)
    ensures SplitFrom(q, current) == [current + q]
  {
    if q != [] {
      assert !IsSeparator(q[0]);
      assert NoSeparator(q[1..]) by {
        forall k | 0 <= k < |q| - 1 ensures !IsSeparator(q[1..][k]) {
          assert q[1..][k] == q[k + 1];
        }
      }
      SplitWhole(q[1..], current + [q[0]]);
      assert SplitFrom(q, current) == SplitFrom(q[1..], current + [q[0]]);
      assert current + [q[0]] + q[1..] == current + q;
    } else {
      assert current + q == current;
    }
  }

  /** Splitting at a separator splits the text into the pieces before it and the pieces after it. */
  lemma {:induction false} SplitAtSeparator(p: string, s: char, q: string, current: string)
    requires IsSeparator(s)
    ensures SplitFrom(p + [s] + q, current) == SplitFrom(p, current) + Split(q)
  {
    if p == [] {
      assert p + [s] + q == [s] + q;
      assert ([s] + q)[1..] == q;
    } else {
      assert (p + [s] + q)[1..] == p[1..] + [s] + q;
      if IsSeparator(p[0]) {
        SplitAtSeparator(p[1..], s, q, "");
      } else {
        SplitAtSeparator(p[1..], s, q, current + [p[0]]);
      }
    }
  }

  /**
   * `[char.strip() for char in pieces if char.strip()]`: each piece with its
   * surrounding whitespace removed, pieces that were only whitespace dropped.
   */
  function StripPieces(pieces: seq<string>): (r: seq<string>)
    ensures |r| <= |pieces|
  {
    if pieces == [] then []
    else (if Strip(pieces[0]) != "" then [Strip(pieces[0])] else []) + StripPieces(pieces[1..])
  }

  /** Every piece kept is non-empty and neither starts nor ends with whitespace. */
  lemma {:induction false} StripPiecesClean(pieces: seq<string>)
    ensures forall i :: 0 <= i < |StripPieces(pieces)| ==>
      var p := StripPieces(pieces)[i];
      p != [] && !IsSpace(p[0]) && !IsSpace(p[|p| - 1])
  {
    if pieces != [] {
      StripPiecesClean(pieces[1..]);
    }
  }

  /** The pieces of the character prompt's input that the check examines. */
  function Pieces(input: string): seq<string>
  {
    StripPieces(Split(input))
  }

  /** A piece that is not one character. */
  predicate NotSingle(p: string)
  {
    |p| != 1
  }

  /** A piece that is not a CJK character (`not '一' <= p <= '鿿'`, asked only of one-character pieces). */
  predicate NotCjk(p: string)
  {
    |p| != 1 || !IsCjk(p[0])
  }

  /** What `validate_chinese_chars` returns: the three characters, or the message explaining the refusal. */
  datatype CharsCheck = Accepted(chars: seq<string>) | Rejected(message: string)

  function CountMessage(n: nat): string
  {
    "输入格式错误：您输入了 " + NatToString(n) + " 个字符，请确保输入 3 个汉字。"
  }

  function NotSingleMessage(bad: seq<string>): string
  {
    "输入格式错误：'" + Join(", ", bad) + "' 不是单个汉字。请确保每个入都是单个汉字。"
  }

  function NotCjkMessage(bad: seq<string>): string
  {
    "输入格式错误：'" + Join(", ", bad) + "' 不是汉字。请确保输入的是汉字。"
  }

  /**
   * `validate_chinese_chars`: the input is accepted exactly when it has
   * three pieces, each a single CJK character, and then yields those pieces
   * in input order. Otherwise the first failing check, in the order count,
   * length, range, chooses the message, which lists the offending pieces.
   */
  function ValidateChineseChars(input: string): (r: CharsCheck)
    ensures var chars := Pieces(input);
      (r.Accepted? <==> |chars| == 3 && forall i :: 0 <= i < 3 ==> |chars[i]| == 1 && IsCjk(chars[i][0]))
      && (r.Accepted? ==> r.chars == chars)
      && (|chars| != 3 ==> r == Rejected(CountMessage(|chars|)))
      && (|chars| == 3 && Keep(chars, NotSingle) != [] ==> r == Rejected(NotSingleMessage(Keep(chars, NotSingle))))
      && (|chars| == 3 && Keep(chars, NotSingle) == [] && r.Rejected? ==> r == Rejected(NotCjkMessage(Keep(chars, NotCjk))))
  {
    var chars := Pieces(input);
    KeepMembers(chars, NotSingle);
    KeepMembers(chars, NotCjk);
    if |chars| != 3 then Rejected(CountMessage(|chars|))
    else
      var invalid := Keep(chars, NotSingle);
      if invalid != [] then
        assert invalid[0] in chars;
        Rejected(NotSingleMessage(invalid))
      else
        var nonChinese := Keep(chars, NotCjk);
        if nonChinese != [] then
          assert nonChinese[0] in chars;
          Rejected(NotCjkMessage(nonChinese))
        else
          assert forall i :: 0 <= i < 3 ==> chars[i] in chars;
          Accepted(chars)
  }

  /** Three CJK characters written with either comma between them are accepted and come back in order. */
  lemma ThreeCharsAccepted(a: char, b: char, c: char, s1: char, s2: char)
    requires IsCjk(a) && IsCjk(b) && IsCjk(c) && IsSeparator(s1) && IsSeparator(s2)
    ensures ValidateChineseChars([a, s1, b, s2, c]) == Accepted([[a], [b], [c]])
  {
    ThreeCharsPieces(a, b, c, s1, s2);
    var chars := [[a], [b], [c]];
    KeepNone(chars, NotSingle);
    KeepNone(chars, NotCjk);
  }

  /** The pieces of `a,b,c`. */
  lemma ThreeCharsPieces(a: char, b: char, c: char, s1: char, s2: char)
    requires IsCjk(a) && IsCjk(b) && IsCjk(c) && IsSeparator(s1) && IsSeparator(s2)
    ensures Pieces([a, s1, b, s2, c]) == [[a], [b], [c]]
  {
    ThreeCharsSplit(a, b, c, s1, s2);
    StripSingles([[a], [b], [c]]);
  }

  /** Pieces that are single CJK characters pass the stripping unchanged. */
  lemma {:induction false} StripSingles(pieces: seq<string>)
    requires forall i :: 0 <= i < |pieces| ==> |pieces[i]| == 1 && IsCjk(pieces[i][0])
    ensures StripPieces(pieces) == pieces
  {
    if pieces != [] {
      StripSingles(pieces[1..]);
      StripSingle(pieces[0]);
      assert [pieces[0]] + pieces[1..] == pieces;
    }
  }

  /** The pieces of `a,b,c` before stripping. */
  lemma ThreeCharsSplit(a: char, b: char, c: char, s1: char, s2: char)
    requires IsCjk(a) && IsCjk(b) && IsCjk(c) && IsSeparator(s1) && IsSeparator(s2)
    ensures Split([a, s1, b, s2, c]) == [[a], [b], [c]]
  {
    assert [c][1..] == [];
    assert [] + [c] == [c] && [] + [b] == [b] && [] + [a] == [a];
    assert SplitFrom([c], []) == SplitFrom([], [c]) == [[c]];
    assert [s2, c][1..] == [c];
    assert SplitFrom([s2, c], [b]) == [[b]] + SplitFrom([c], []) == [[b], [c]];
    assert [b, s2, c][1..] == [s2, c];
    assert SplitFrom([b, s2, c], []) == SplitFrom([s2, c], [b]);
    assert [s1, b, s2, c][1..] == [b, s2, c];
    assert SplitFrom([s1, b, s2, c], [a]) == [[a]] + SplitFrom([b, s2, c], []) == [[a], [b], [c]];
    assert [a, s1, b, s2, c][1..] == [s1, b, s2, c];
    assert SplitFrom([a, s1, b, s2, c], []) == SplitFrom([s1, b, s2, c], [a]);
  }

  /** A lone CJK character strips to itself. */
  lemma StripSingle(p: string)
    requires |p| == 1 && IsCjk(p[0])
    ensures Strip(p) == p
  {
    assert !IsSpace(p[0]);
    assert StripLeft(p) == p;
    assert p[|p| - 1] == p[0];
    assert StripRight(p) == p;
  }

  /** The refusal for a wrong count names that count: the digits in the message read back as the number of pieces. */
  lemma CountMessageNamesCount(n: nat)
    ensures var m := CountMessage(n);
      var digits := NatToString(n);
      m[|"输入格式错误：您输入了 "|..|"输入格式错误：您输入了 "| + |digits|] == digits
      && DigitsValue(digits) == n
  {
    NatToStringRoundTrip(n);
  }

  /** The date mode's third number: `(hour + 1) % 24 // 2 + 1`. */
  function HourNumber(hour: int): (n: int)
    ensures 1 <= n <= 12
  {
    (hour + 1) % 24 / 2 + 1
  }

  /**
   * The hour number is one more than the index of the hour's branch in the
   * chart calculation (子 for 23:00-00:59, 丑 for 01:00-02:59, ...), for every hour.
   */
  lemma {:induction false} HourNumberIsTimeBranch(year: int, month: int, day: int, hour: int)
    ensures HourNumber(hour) == Calendar.Indices(year, month, day, hour).timeBranch + 1
  {
    var x := hour + 1;
    var q := x / 24;
    var r := x % 24;
    assert x == 24 * q + r && 0 <= r < 24;
    assert x / 2 == 12 * q + r / 2;
    assert (12 * q + r / 2) % 12 == r / 2;
  }
}

=== FILE: elements.dfy ===
/**
 * The five-element registry (src/five_elements.py). The registry is read from a
 * data file at start-up; here it is a value passed to the code that uses it.
 * Only the fields the calculators read are kept: the element's name and the
 * names of the element it generates and the element it overcomes.
 */
module Elements {

  /** One registry record: `FiveElement.name`, `.generates`, `.overcomes`. */
  datatype ElementInfo = ElementInfo(name: string, generates: string, overcomes: string)

  /** Which of the two links of a record a walk follows. */
  datatype Link = Generates | Overcomes

  /** The name an element's link points at. */
  function Target(e: ElementInfo, link: Link): string
  {
    match link
    case Generates => e.generates
    case Overcomes => e.overcomes
  }

  const Wood: string := "木"
  const Fire: string := "火"
  const Earth: string := "土"
  const Metal: string := "金"
  const Water: string := "水"

  /** The generation cycle 木→火→土→金→水→木, as the command-line help prints it. */
  const GenerationCycle: seq<string> := [Wood, Fire, Earth, Metal, Water]

  /**
   * A registry whose links follow the canonical cycles: each element generates
   * the next one of GenerationCycle and overcomes the one after that
   * (金→木→土→水→火→金). The data file's own order is not known; this table
   * lists 木 first.
   */
  const CanonicalElements: seq<ElementInfo> := [
    ElementInfo(Wood, Fire, Earth),
    ElementInfo(Fire, Earth, Metal),
    ElementInfo(Earth, Metal, Water),
    ElementInfo(Metal, Water, Wood),
    ElementInfo(Water, Wood, Fire)
  ]

  /** The position of a canonical element name in GenerationCycle (`list.index`). */
  function CycleIndex(e: string): (i: nat)
    requires e in GenerationCycle
    ensures i < 5 && GenerationCycle[i] == e
  {
    if e == Wood then 0 else if e == Fire then 1 else if e == Earth then 2 else if e == Metal then 3 else 4
  }

  /** Each record of the canonical table links to its successor and to the element two further on. */
  lemma CanonicalLinks(i: nat)
    requires i < 5
    ensures CanonicalElements[i].name == GenerationCycle[i]
    ensures CanonicalElements[i].generates == GenerationCycle[(i + 1) % 5]
    ensures CanonicalElements[i].overcomes == GenerationCycle[(i + 2) % 5]
  {
  }
}

=== FILE: five_elements_utils.dfy ===
/**
 * The five-element (Wu Xing) utilities of src/utils/five_elements_utils.py:
 * the stem/branch → element table, the two cycle orders built from the
 * registry, the element tally of a Four-Pillars chart with its helping,
 * weakening and missing elements, and the look-ups of supporting and
 * weakening elements along the registry's cycles.
 *
 * src/utils/calendar_converter.py holds the same table and the same
 * `analyze_wuxing` code, differing only in comments; the one model here
 * stands for both. One of those comments, 克我者 on the `(day_index + 2) % 5`
 * entry, names the element that overcomes the day element, while that index
 * is the element the day element overcomes (see HelpingWeakeningMeaning).
 */
module FiveElementsUtils {
  import opened Wrappers
  import opened Elements
  import opened Lists
  import Text

  /** WUXING: the element of each of the ten stems and twelve branches. */
  const Wuxing: map<char, string> := map[
    '甲' := Wood, '乙' := Wood, '丙' := Fire, '丁' := Fire, '戊' := Earth,
    '己' := Earth, '庚' := Metal, '辛' := Metal, '壬' := Water, '癸' := Water,
    '子' := Water, '丑' := Earth, '寅' := Wood, '卯' := Wood, '辰' := Earth,
    '巳' := Fire, '午' := Fire, '未' := Earth, '申' := Metal, '酉' := Metal,
    '戌' := Earth, '亥' := Water
  ]

  /** Every value of WUXING is one of the five elements. */
  lemma WuxingValues(c: char)
    requires c in Wuxing
    ensures Wuxing[c] in GenerationCycle
  {
  }

  // ----- build_orders -------------------------------------------------------

  /** Some record of the registry carries `name`. */
  predicate HasRecord(table: seq<ElementInfo>, name: string)
  {
    table != [] && (table[|table| - 1].name == name || HasRecord(table[..|table| - 1], name))
  }

  /**
   * `element_dict[name]` with `element_dict = {e.name: e for e in table}`:
   * the last record carrying the name wins; None stands for KeyError.
   */
  function LookupName(table: seq<ElementInfo>, name: string): (r: Option<ElementInfo>)
    ensures r.None? <==> !HasRecord(table, name)
    ensures r.Some? ==> r.value in table && r.value.name == name
  {
    if table == [] then None
    else if table[|table| - 1].name == name then Some(table[|table| - 1])
    else LookupName(table[..|table| - 1], name)
  }

  /**
   * Building the dictionary overwrites earlier records of a name: the record
   * found is the one at the last position carrying that name.
   */
  lemma {:induction false} LookupNameLastWins(table: seq<ElementInfo>, name: string, k: nat)
    requires k < |table| && table[k].name == name
    requires forall j :: k < j < |table| ==> table[j].name != name
    ensures LookupName(table, name) == Some(table[k])
    decreases |table|
  {
    if k < |table| - 1 {
      assert table[|table| - 1].name != name;
      var init := table[..|table| - 1];
      assert forall j :: k < j < |init| ==> init[j] == table[j];
      LookupNameLastWins(init, name, k);
    }
  }

  /** The name one link away from `name`, looked up through the dictionary. */
  function Next(table: seq<ElementInfo>, name: string, link: Link): Option<string>
  {
    match LookupName(table, name)
    case None => None
    case Some(e) => Some(Target(e, link))
  }

  function Prepend(x: string, o: Option<seq<string>>): Option<seq<string>>
  {
    match o
    case None => None
    case Some(s) => Some([x] + s)
  }

  function Extend(p: seq<string>, o: Option<seq<string>>): Option<seq<string>>
  {
    match o
    case None => None
    case Some(s) => Some(p + s)
  }

  lemma ExtendPrepend(p: seq<string>, x: string, o: Option<seq<string>>)
    ensures Extend(p, Prepend(x, o)) == Extend(p + [x], o)
    ensures Extend([], o) == o
  {
    if o.Some? {
      assert p + ([x] + o.value) == p + [x] + o.value;
      assert [] + o.value == o.value;
    }
  }

  /**
   * The `k` names one loop of build_orders appends when it starts at `start`:
   * each name, then the name its link points at. Every appended name is looked
   * up, so a link to an unknown name is None (KeyError).
   */
  function Walk(table: seq<ElementInfo>, start: string, link: Link, k: nat): Option<seq<string>>
    decreases k
  {
    if k == 0 then Some([])
    else match Next(table, start, link)
      case None => None
      case Some(n) => Prepend(start, Walk(table, n, link, k - 1))
  }

  /** What build_orders returns: both orders start at the first record's name and have one entry per record. */
  function Orders(table: seq<ElementInfo>): Result<(seq<string>, seq<string>)>
  {
    if table == [] then Err(IndexError)
    else
      var gen := Walk(table, table[0].name, Generates, |table|);
      var over := Walk(table, table[0].name, Overcomes, |table|);
      if gen.Some? && over.Some? then Ok((gen.value, over.value)) else Err(KeyError)
  }

  /** One of the two loops of build_orders: append `current`, then follow its link. */
  method FollowLinks(table: seq<ElementInfo>, start: string, link: Link, n: nat) returns (order: Option<seq<string>>)
    ensures order == Walk(table, start, link, n)
  {
    var acc: seq<string> := [];
    var current := start;
    var i := 0;
    ExtendPrepend([], start, Walk(table, start, link, n));
    while i < n
      invariant 0 <= i <= n
      invariant Walk(table, start, link, n) == Extend(acc, Walk(table, current, link, n - i))
    {
      var e := LookupName(table, current);
      ExtendPrepend(acc, current, if e.None? then None else Walk(table, Target(e.value, link), link, n - i - 1));
      acc := acc + [current];
      if e.None? {
        return None;
      }
      current := Target(e.value, link);
      i := i + 1;
    }
    assert Extend(acc, Some([])) == Some(acc + []);
    assert acc + [] == acc;
    return Some(acc);
  }

  /** build_orders: the generation order and the overcoming order of the registry. */
  method BuildOrders(table: seq<ElementInfo>) returns (r: Result<(seq<string>, seq<string>)>)
    ensures r == Orders(table)
  {
    if |table| == 0 {
      return Err(IndexError);
    }
    var generation := FollowLinks(table, table[0].name, Generates, |table|);
    if generation.None? {
      return Err(KeyError);
    }
    var overcoming := FollowLinks(table, table[0].name, Overcomes, |table|);
    if overcoming.None? {
      return Err(KeyError);
    }
    return Ok((generation.value, overcoming.value));
  }

  /** Each entry's link names the next entry. */
  predicate Linked(table: seq<ElementInfo>, order: seq<string>, link: Link)
  {
    forall i :: 0 <= i < |order| - 1 ==> Next(table, order[i], link) == Some(order[i + 1])
  }

  /**
   * A walk has exactly `k` entries, starts at `start`, each entry's link
   * names the next entry, and the last entry's name is in the registry.
   */
  lemma {:induction false} WalkShape(table: seq<ElementInfo>, start: string, link: Link, k: nat, o: seq<string>)
    requires Walk(table, start, link, k) == Some(o)
    ensures |o| == k
    ensures k > 0 ==> o[0] == start && Next(table, o[k - 1], link).Some?
    ensures Linked(table, o, link)
    decreases k
  {
    if k > 0 {
      var n := Next(table, start, link).value;
      var rest := Walk(table, n, link, k - 1).value;
      assert o == [start] + rest;
      WalkShape(table, n, link, k - 1, rest);
    }
  }

  /** Every link of every record names a record of the registry. */
  predicate Closed(table: seq<ElementInfo>)
  {
    forall e :: e in table ==> HasRecord(table, e.generates) && HasRecord(table, e.overcomes)
  }

  /** Every record's own name has a record. */
  lemma {:induction false} HasOwnRecord(table: seq<ElementInfo>, i: nat)
    requires i < |table|
    ensures HasRecord(table, table[i].name)
    decreases |table|
  {
    if i < |table| - 1 {
      HasOwnRecord(table[..|table| - 1], i);
    }
  }

  /** In a closed registry no lookup of build_orders raises KeyError. */
  lemma {:induction false} WalkDefined(table: seq<ElementInfo>, start: string, link: Link, k: nat)
    requires Closed(table) && HasRecord(table, start)
    ensures Walk(table, start, link, k).Some?
    decreases k
  {
    if k > 0 {
      var e := LookupName(table, start).value;
      assert e in table;
      WalkDefined(table, Target(e, link), link, k - 1);
    }
  }

  /**
   * build_orders returns two lists of one entry per record; both start at the
   * first record's name and each entry's link names the next; it succeeds on
   * every non-empty closed registry.
   */
  lemma OrdersShape(table: seq<ElementInfo>)
    ensures table == [] <==> Orders(table) == Err(IndexError)
    ensures table != [] && Closed(table) ==> Orders(table).Ok?
    ensures Orders(table).Ok? ==>
      var (gen, over) := Orders(table).value;
      |gen| == |over| == |table| && gen[0] == over[0] == table[0].name
      && Linked(table, gen, Generates) && Linked(table, over, Overcomes)
  {
    if table != [] {
      if Closed(table) {
        HasOwnRecord(table, 0);
        WalkDefined(table, table[0].name, Generates, |table|);
        WalkDefined(table, table[0].name, Overcomes, |table|);
      }
      if Orders(table).Ok? {
        WalkShape(table, table[0].name, Generates, |table|, Orders(table).value.0);
        WalkShape(table, table[0].name, Overcomes, |table|, Orders(table).value.1);
      }
    }
  }

  /** The last entry of an order links back to the first: the walk is a closed cycle. */
  predicate ClosesCycle(table: seq<ElementInfo>, order: seq<string>, link: Link)
  {
    order != [] && Next(table, order[|order| - 1], link) == Some(order[0])
  }

  /** The canonical orders. */
  const OvercomingFromWood: seq<string> := [Wood, Earth, Water, Fire, Metal]

  /**
   * On the canonical registry build_orders yields 木火土金水 and 木土水火金,
   * and each walk returns to its start after five steps.
   */
  lemma CanonicalOrders()
    ensures Orders(CanonicalElements) == Ok((GenerationCycle, OvercomingFromWood))
    ensures ClosesCycle(CanonicalElements, GenerationCycle, Generates)
    ensures ClosesCycle(CanonicalElements, OvercomingFromWood, Overcomes)
  {
    CanonicalWalks();
    assert CanonicalElements[0].name == Wood && |CanonicalElements| == 5;
    CanonicalStep(4, Generates);
    CanonicalStep(3, Overcomes);
  }

  /** Both five-step walks from 木 on the canonical registry. */
  lemma CanonicalWalks()
    ensures Walk(CanonicalElements, Wood, Generates, 5) == Some(GenerationCycle)
    ensures Walk(CanonicalElements, Wood, Overcomes, 5) == Some(OvercomingFromWood)
  {
    CanonicalGenerationWalk(5);
    CanonicalOvercomingWalk(5);
  }

  lemma CanonicalGenerationWalk(k: nat)
    requires k == 5
    ensures Walk(CanonicalElements, Wood, Generates, k) == Some(GenerationCycle)
  {
    forall i | 0 <= i < 4
      ensures Next(CanonicalElements, GenerationCycle[i], Generates) == Some(GenerationCycle[i + 1])
    {
      CanonicalStep(i, Generates);
    }
    CanonicalStep(4, Generates);
    ChainWalk(CanonicalElements, GenerationCycle, Generates, 0);
    assert GenerationCycle[0..] == GenerationCycle;
  }

  lemma CanonicalOvercomingWalk(k: nat)
    requires k == 5
    ensures Walk(CanonicalElements, Wood, Overcomes, k) == Some(OvercomingFromWood)
  {
    forall i | 0 <= i < 4
      ensures Next(CanonicalElements, OvercomingFromWood[i], Overcomes) == Some(OvercomingFromWood[i + 1])
    {
      OvercomingLink(i);
    }
    OvercomingLast();
    ChainWalk(CanonicalElements, OvercomingFromWood, Overcomes, 0);
    assert OvercomingFromWood[0..] == OvercomingFromWood;
  }

  lemma OvercomingLink(i: nat)
    requires i < 4
    ensures Next(CanonicalElements, OvercomingFromWood[i], Overcomes) == Some(OvercomingFromWood[i + 1])
  {
    if i == 0 {
      CanonicalStep(0, Overcomes);
    } else if i == 1 {
      CanonicalStep(2, Overcomes);
    } else if i == 2 {
      CanonicalStep(4, Overcomes);
    } else {
      CanonicalStep(1, Overcomes);
    }
  }

  lemma OvercomingLast()
    ensures Next(CanonicalElements, OvercomingFromWood[4], Overcomes) == Some(OvercomingFromWood[0])
  {
    CanonicalStep(3, Overcomes);
  }

  /**
   * The converse of WalkShape: a list whose every entry links to the next, and
   * whose last entry's link resolves, is what the walk from each of its entries lists.
   */
  lemma {:induction false} ChainWalk(table: seq<ElementInfo>, order: seq<string>, link: Link, m: nat)
    requires m < |order|
    requires forall i :: m <= i < |order| - 1 ==> Next(table, order[i], link) == Some(order[i + 1])
    requires Next(table, order[|order| - 1], link).Some?
    ensures Walk(table, order[m], link, |order| - m) == Some(order[m..])
    decreases |order| - m
  {
    if m < |order| - 1 {
      ChainWalk(table, order, link, m + 1);
      assert order[m..] == [order[m]] + order[m + 1..];
    } else {
      assert order[m..] == [order[m]] + [];
    }
  }

  /** One link on the canonical registry moves one place (generates) or two (overcomes) along GenerationCycle. */
  lemma CanonicalStep(i: nat, link: Link)
    requires i < 5
    ensures Next(CanonicalElements, GenerationCycle[i], link)
      == Some(GenerationCycle[(i + (if link == Generates then 1 else 2)) % 5])
  {
    CanonicalLookup(i);
    CanonicalLinks(i);
  }

  /** Looking a canonical name up in the canonical registry finds its own record. */
  lemma CanonicalLookup(i: nat)
    requires i < 5
    ensures LookupName(CanonicalElements, GenerationCycle[i]) == Some(CanonicalElements[i])
  {
    var t := CanonicalElements;
    assert t[..4][..3] == t[..3] && t[..3][..2] == t[..2] && t[..2][..1] == t[..1];
    if i < 4 {
      assert LookupName(t, GenerationCycle[i]) == LookupName(t[..4], GenerationCycle[i]);
      if i < 3 {
        assert LookupName(t[..4], GenerationCycle[i]) == LookupName(t[..3], GenerationCycle[i]);
        if i < 2 {
          assert LookupName(t[..3], GenerationCycle[i]) == LookupName(t[..2], GenerationCycle[i]);
          if i < 1 {
            assert LookupName(t[..2], GenerationCycle[i]) == LookupName(t[..1], GenerationCycle[i]);
          }
        }
      }
    }
  }

  /** Python's `(i - 1) % n` and `(i + 1) % n` for a valid index `i`: the cyclic neighbours. */
  lemma NeighbourMod(i: int, n: int)
    requires 0 <= i < n
    ensures (i - 1) % n == if i == 0 then n - 1 else i - 1
    ensures (i + 1) % n == if i == n - 1 then 0 else i + 1
  {
  }

  /** In a closed cycle, the entries at Python's `(j - 1) % n` and `(j + 1) % n` are the linked neighbours of entry j. */
  lemma CycleNeighbours(table: seq<ElementInfo>, order: seq<string>, link: Link, j: nat)
    requires Linked(table, order, link) && ClosesCycle(table, order, link) && j < |order|
    ensures Next(table, order[(j - 1) % |order|], link) == Some(order[j])
    ensures Next(table, order[j], link) == Some(order[(j + 1) % |order|])
  {
    NeighbourMod(j, |order|);
    if j > 0 {
      assert Next(table, order[j - 1], link) == Some(order[j]);
    }
    if j < |order| - 1 {
      assert Next(table, order[j], link) == Some(order[j + 1]);
    }
  }

  // ----- get_supporting_elements / get_weakening_elements ---------------------

  /** get_supporting_elements: [the element before the day element in the generation order, the day element]. */
  function GetSupportingElements(generationOrder: seq<string>, dayElement: string): (r: Result<(seq<string>, string)>)
    ensures r.Err? <==> dayElement !in generationOrder
    ensures r.Err? ==> r.error == ValueError
    ensures r.Ok? ==> |r.value.0| == 2 && r.value.0[0] in generationOrder && r.value.0[1] == dayElement
    ensures r.Ok? ==> r.value.1 == r.value.0[0] + "生" + dayElement + "（生我者）\n" + dayElement + "为日主（同我者）"
  {
    match IndexOf(generationOrder, dayElement)
    case Err(e) => Err(e)
    case Ok(index) =>
      var generating := generationOrder[(index - 1) % |generationOrder|];
      Ok(([generating, dayElement],
          generating + "生" + dayElement + "（生我者）\n" + dayElement + "为日主（同我者）"))
  }

  /**
   * When each entry of the generation order generates the next and the last
   * generates the first (as build_orders yields on a cyclic registry), the first supporting element is the one that generates the day element.
   */
  lemma SupportingElementGenerates(table: seq<ElementInfo>, order: seq<string>, dayElement: string)
    requires Linked(table, order, Generates) && ClosesCycle(table, order, Generates)
    requires dayElement in order
    ensures GetSupportingElements(order, dayElement).Ok?
    ensures Next(table, GetSupportingElements(order, dayElement).value.0[0], Generates) == Some(dayElement)
  {
    CycleNeighbours(table, order, Generates, IndexOf(order, dayElement).value);
  }

  /**
   * get_weakening_elements: [the element before the day element in the
   * overcoming order, the element after it in the generation order, the day element].
   */
  function GetWeakeningElements(generationOrder: seq<string>, overcomingOrder: seq<string>, dayElement: string)
    : (r: Result<(seq<string>, string)>)
    ensures r.Err? <==> dayElement !in generationOrder || dayElement !in overcomingOrder
    ensures r.Err? ==> r.error == ValueError
    ensures r.Ok? ==> |r.value.0| == 3 && r.value.0[0] in overcomingOrder && r.value.0[1] in generationOrder
    ensures r.Ok? ==> r.value.0[2] == dayElement
    ensures r.Ok? ==> r.value.1 == r.value.0[0] + "克" + dayElement + "（克我者）\n"
                                   + dayElement + "生" + r.value.0[1] + "（我生者）\n"
                                   + dayElement + "耗泄（耗泄者，虽然是同类，但会造成耗损）"
  {
    match IndexOf(generationOrder, dayElement)
    case Err(e) => Err(e)
    case Ok(genIndex) =>
      match IndexOf(overcomingOrder, dayElement)
      case Err(e) => Err(e)
      case Ok(overIndex) =>
        var overcoming := overcomingOrder[(overIndex - 1) % |overcomingOrder|];
        var generated := generationOrder[(genIndex + 1) % |generationOrder|];
        Ok(([overcoming, generated, dayElement],
            overcoming + "克" + dayElement + "（克我者）\n"
            + dayElement + "生" + generated + "（我生者）\n"
            + dayElement + "耗泄（耗泄者，虽然是同类，但会造成耗损）"))
  }

  /**
   * When both orders are closed cycles of their links, the first weakening element
   * overcomes the day element and the day element generates the second.
   */
  lemma WeakeningElementsMeaning(table: seq<ElementInfo>, gen: seq<string>, over: seq<string>, dayElement: string)
    requires Linked(table, gen, Generates) && ClosesCycle(table, gen, Generates)
    requires Linked(table, over, Overcomes) && ClosesCycle(table, over, Overcomes)
    requires dayElement in gen && dayElement in over
    ensures GetWeakeningElements(gen, over, dayElement).Ok?
    ensures Next(table, GetWeakeningElements(gen, over, dayElement).value.0[0], Overcomes) == Some(dayElement)
    ensures Next(table, dayElement, Generates) == Some(GetWeakeningElements(gen, over, dayElement).value.0[1])
  {
    CycleNeighbours(table, gen, Generates, IndexOf(gen, dayElement).value);
    CycleNeighbours(table, over, Overcomes, IndexOf(over, dayElement).value);
  }

  // ----- analyze_wuxing --------------------------------------------------------

  /** A Four-Pillars chart: the dictionary {"year", "month", "day", "time"} of stem+branch strings. */
  datatype Bazi = Bazi(year: string, month: string, day: string, time: string)

  /** `bazi.values()`, in insertion order. */
  function Pillars(b: Bazi): seq<string>
  {
    [b.year, b.month, b.day, b.time]
  }

  /** get_wuxing: the elements of a pillar's first two characters, failing as the indexing and the table look-up do. */
  function GetWuxing(stemBranch: string): (r: Result<(string, string)>)
    ensures r.Ok? <==> |stemBranch| >= 2 && stemBranch[0] in Wuxing && stemBranch[1] in Wuxing
    ensures r.Ok? ==> r.value == (Wuxing[stemBranch[0]], Wuxing[stemBranch[1]])
    ensures r.Ok? ==> r.value.0 in GenerationCycle && r.value.1 in GenerationCycle
    ensures r.Err? ==> r.error == (if |stemBranch| < 1 then IndexError
                                   else if stemBranch[0] !in Wuxing then KeyError
                                   else if |stemBranch| < 2 then IndexError
                                   else KeyError)
  {
    if |stemBranch| < 1 then Err(IndexError)
    else if stemBranch[0] !in Wuxing then Err(KeyError)
    else if |stemBranch| < 2 then Err(IndexError)
    else if stemBranch[1] !in Wuxing then Err(KeyError)
    else Ok((Wuxing[stemBranch[0]], Wuxing[stemBranch[1]]))
  }

  /**
   * The elements of the pillars' characters in reading order, two per pillar,
   * or the error the first malformed pillar raises.
   */
  function PillarElements(pillars: seq<string>): (r: Result<seq<string>>)
    ensures r.Ok? ==> |r.value| == 2 * |pillars|
    ensures r.Ok? ==> forall x :: x in r.value ==> x in GenerationCycle
  {
    if pillars == [] then Ok([])
    else
      match GetWuxing(pillars[0])
      case Err(e) => Err(e)
      case Ok(pair) => PrependElements([pair.0, pair.1], PillarElements(pillars[1..]))
  }

  /** Puts `p` in front of a successful list of elements; an error passes through. */
  function PrependElements(p: seq<string>, r: Result<seq<string>>): Result<seq<string>>
  {
    match r
    case Err(e) => Err(e)
    case Ok(s) => Ok(p + s)
  }

  /** Before the loop: nothing collected, all pillars still to go. */
  lemma PrependNothing(pillars: seq<string>)
    ensures PillarElements(pillars) == PrependElements([], PillarElements(pillars[0..]))
  {
    assert pillars[0..] == pillars;
    var r := PillarElements(pillars);
    if r.Ok? {
      assert [] + r.value == r.value;
    }
  }

  /** Entries 2i and 2i+1 are the stem's and the branch's element of pillar i. */
  lemma {:induction false} PillarElementsMeaning(pillars: seq<string>, i: nat)
    requires PillarElements(pillars).Ok? && i < |pillars|
    ensures GetWuxing(pillars[i]) == Ok((PillarElements(pillars).value[2 * i], PillarElements(pillars).value[2 * i + 1]))
  {
    if i > 0 {
      PillarElementsMeaning(pillars[1..], i - 1);
      assert pillars[1..][i - 1] == pillars[i];
    }
  }

  /**
   * One step of analyze_wuxing's loop: the elements of pillars[i..] are those
   * of pillar i followed by those of pillars[i + 1..], or pillar i's error.
   */
  lemma PillarElementsStep(pillars: seq<string>, i: nat, elems: seq<string>)
    requires i < |pillars|
    ensures PrependElements(elems, PillarElements(pillars[i..])) ==
      match GetWuxing(pillars[i])
      case Err(e) => Err(e)
      case Ok(pair) => PrependElements(elems + [pair.0] + [pair.1], PillarElements(pillars[i + 1..]))
  {
    assert pillars[i..][1..] == pillars[i + 1..];
    var w := GetWuxing(pillars[i]);
    if w.Ok? {
      var rest := PillarElements(pillars[i + 1..]);
      if rest.Ok? {
        assert elems + ([w.value.0, w.value.1] + rest.value) == elems + [w.value.0] + [w.value.1] + rest.value;
      }
    }
  }

  /**
   * The keys of `wuxing_count`, in its insertion order 金木水火土. The counts
   * themselves are a `map`, which has no order; this sequence is where the
   * order lives, and `Missing` is the only result that depends on it.
   */
  const CountKeys: seq<string> := [Metal, Wood, Water, Fire, Earth]

  /** How many entries of `elems` are `x`. */
  function Count(elems: seq<string>, x: string): nat
  {
    if elems == [] then 0
    else Count(elems[..|elems| - 1], x) + (if elems[|elems| - 1] == x then 1 else 0)
  }

  /** An element is counted zero times exactly when it does not occur. */
  lemma {:induction false} CountZero(elems: seq<string>, x: string)
    ensures Count(elems, x) == 0 <==> x !in elems
  {
    if elems != [] {
      var init := elems[..|elems| - 1];
      CountZero(init, x);
      assert elems == init + [elems[|elems| - 1]];
    }
  }

  /** `wuxing_count` before any pillar is read. */
  const ZeroCounts: map<string, nat> := map[Metal := 0, Wood := 0, Water := 0, Fire := 0, Earth := 0]

  /** `wuxing_count` after adding one for each entry of `elems`, in order, as analyze_wuxing does. */
  function Tally(elems: seq<string>): (m: map<string, nat>)
    ensures forall k :: k in CountKeys ==> k in m
  {
    if elems == [] then ZeroCounts
    else
      var m := Tally(elems[..|elems| - 1]);
      var x := elems[|elems| - 1];
      if x in m then m[x := m[x] + 1] else m
  }

  /** The count keys are exactly the five elements. */
  lemma CountKeysAreElements(x: string)
    ensures x in CountKeys <==> x in GenerationCycle
  {
  }

  /** The tally has exactly the five element keys, and each holds the number of occurrences of its element. */
  lemma {:induction false} TallyCounts(elems: seq<string>)
    ensures forall k :: k in Tally(elems) <==> k in CountKeys
    ensures forall k :: k in CountKeys ==> Tally(elems)[k] == Count(elems, k)
  {
    if elems != [] {
      TallyCounts(elems[..|elems| - 1]);
    }
  }

  /** Adding one element to the list adds one to its count and nothing else. */
  lemma TallyStep(elems: seq<string>, x: string)
    requires x in GenerationCycle
    ensures x in Tally(elems)
    ensures Tally(elems + [x]) == Tally(elems)[x := Tally(elems)[x] + 1]
  {
    CountKeysAreElements(x);
    assert (elems + [x])[..|elems|] == elems;
  }

  /** The sum of the five counts of `wuxing_count`. */
  function CountTotal(counts: map<string, nat>): nat
    requires forall k :: k in CountKeys ==> k in counts
  {
    counts[Metal] + counts[Wood] + counts[Water] + counts[Fire] + counts[Earth]
  }

  /** When every entry is an element, the counts add up to the number of entries. */
  lemma {:induction false} TallyTotal(elems: seq<string>)
    requires forall x :: x in elems ==> x in GenerationCycle
    ensures CountTotal(Tally(elems)) == |elems|
  {
    if elems != [] {
      var init := elems[..|elems| - 1];
      var x := elems[|elems| - 1];
      assert elems == init + [x];
      TallyTotal(init);
      TallyStep(init, x);
      CountTotalBump(Tally(init), x);
    }
  }

  /** Adding one to one element's count adds one to the total. */
  lemma CountTotalBump(counts: map<string, nat>, x: string)
    requires forall k :: k in CountKeys ==> k in counts
    requires x in GenerationCycle
    ensures forall k :: k in CountKeys ==> k in counts[x := counts[x] + 1]
    ensures CountTotal(counts[x := counts[x] + 1]) == CountTotal(counts) + 1
  {
    CountKeysAreElements(x);
    var i := CycleIndex(x);
    if i == 0 {
      assert x == Wood;
    } else if i == 1 {
      assert x == Fire;
    } else if i == 2 {
      assert x == Earth;
    } else if i == 3 {
      assert x == Metal;
    } else {
      assert x == Water;
    }
  }

  /** `[w for w in keys if counts[w] == 0]`. */
  function ZeroKeys(keys: seq<string>, counts: map<string, nat>): (r: seq<string>)
    requires forall k :: k in keys ==> k in counts
    ensures forall w :: w in r <==> w in keys && counts[w] == 0
    ensures Distinct(keys) ==> Distinct(r)
  {
    if keys == [] then []
    else if counts[keys[0]] == 0 then [keys[0]] + ZeroKeys(keys[1..], counts)
    else ZeroKeys(keys[1..], counts)
  }

  /** `missing`: the elements whose count is zero, in key order. */
  function Missing(counts: map<string, nat>): seq<string>
    requires forall k :: k in CountKeys ==> k in counts
  {
    ZeroKeys(CountKeys, counts)
  }

  /** Filtering by zero count distributes over concatenation: each part keeps its own order. */
  lemma {:induction false} ZeroKeysAppend(a: seq<string>, b: seq<string>, counts: map<string, nat>)
    requires forall k :: k in a ==> k in counts
    requires forall k :: k in b ==> k in counts
    ensures ZeroKeys(a + b, counts) == ZeroKeys(a, counts) + ZeroKeys(b, counts)
  {
    if a == [] {
      assert a + b == b;
    } else {
      assert (a + b)[1..] == a[1..] + b;
      ZeroKeysAppend(a[1..], b, counts);
      if counts[a[0]] == 0 {
        assert [a[0]] + (ZeroKeys(a[1..], counts) + ZeroKeys(b, counts))
          == [a[0]] + ZeroKeys(a[1..], counts) + ZeroKeys(b, counts);
      }
    }
  }

  /** The zero-count filter of one key. */
  lemma ZeroKeysSingle(k: string, counts: map<string, nat>)
    requires k in counts
    ensures ZeroKeys([k], counts) == if counts[k] == 0 then [k] else []
  {
    assert [k][1..] == [];
  }

  /** The entry of `missing` that key `k` contributes: itself when its count is zero, nothing otherwise. */
  function ZeroEntry(k: string, counts: map<string, nat>): seq<string>
    requires k in counts
  {
    if counts[k] == 0 then [k] else []
  }

  /** The zero-count filter of five keys, one key at a time. */
  lemma ZeroKeysFive(k0: string, k1: string, k2: string, k3: string, k4: string, counts: map<string, nat>)
    requires k0 in counts && k1 in counts && k2 in counts && k3 in counts && k4 in counts
    ensures ZeroKeys([k0, k1, k2, k3, k4], counts) == ZeroEntry(k0, counts) + ZeroEntry(k1, counts) + ZeroEntry(k2, counts)
                                                     + ZeroEntry(k3, counts) + ZeroEntry(k4, counts)
  {
    var a, b, c, d := [k0], [k0, k1], [k0, k1, k2], [k0, k1, k2, k3];
    assert b == a + [k1] && c == b + [k2] && d == c + [k3] && [k0, k1, k2, k3, k4] == d + [k4];
    ZeroKeysSingle(k0, counts);
    ZeroKeysSingle(k1, counts);
    ZeroKeysSingle(k2, counts);
    ZeroKeysSingle(k3, counts);
    ZeroKeysSingle(k4, counts);
    ZeroKeysAppend(a, [k1], counts);
    ZeroKeysAppend(b, [k2], counts);
    ZeroKeysAppend(c, [k3], counts);
    ZeroKeysAppend(d, [k4], counts);
  }

  /**
   * `missing` lists the zero-count elements in the dictionary's key order
   * 金木水火土, each at most once.
   */
  lemma MissingInKeyOrder(counts: map<string, nat>)
    requires forall k :: k in CountKeys ==> k in counts
    ensures Missing(counts) == ZeroEntry(Metal, counts) + ZeroEntry(Wood, counts) + ZeroEntry(Water, counts)
                               + ZeroEntry(Fire, counts) + ZeroEntry(Earth, counts)
  {
    ZeroKeysFive(Metal, Wood, Water, Fire, Earth, counts);
  }

  /** A distinct list has as many entries as its set of values. */
  lemma {:induction false} DistinctCard(s: seq<string>)
    requires Distinct(s)
    ensures |set x | x in s| == |s|
  {
    if s != [] {
      var t := s[1..];
      assert Distinct(t);
      DistinctCard(t);
      assert (set x | x in s) == {s[0]} + (set x | x in t);
    }
  }

  /** One missing entry per element that does not occur: five minus the number of distinct elements present. */
  lemma MissingCount(elems: seq<string>)
    requires forall x :: x in elems ==> x in GenerationCycle
    ensures |Missing(Tally(elems))| == 5 - |set x | x in elems|
    ensures forall w :: w in Missing(Tally(elems)) <==> w in GenerationCycle && w !in elems
  {
    var m := Missing(Tally(elems));
    MissingMembers(elems);
    var all := set x | x in CountKeys;
    var present := set x | x in elems;
    assert Distinct(CountKeys);
    DistinctCard(CountKeys);
    DistinctCard(m);
    assert (set x | x in m) == all - present by {
      forall w ensures w in m <==> w in all - present {
        CountKeysAreElements(w);
      }
    }
    assert present <= all by {
      forall x | x in present ensures x in all {
        CountKeysAreElements(x);
      }
    }
    CardDifference(all, present);
  }

  /** Removing a subset removes its size. */
  lemma CardDifference(all: set<string>, part: set<string>)
    requires part <= all
    ensures |all - part| == |all| - |part|
  {
    assert all == (all - part) + part;
  }

  /** An element is missing exactly when it does not occur. */
  lemma MissingMembers(elems: seq<string>)
    ensures forall w :: w in Missing(Tally(elems)) <==> w in GenerationCycle && w !in elems
  {
    var m := Missing(Tally(elems));
    TallyCounts(elems);
    forall w
      ensures w in m <==> w in GenerationCycle && w !in elems
    {
      CountKeysAreElements(w);
      CountZero(elems, w);
    }
  }

  /** analyze_wuxing: `helping_wuxing`, the day element and the one before it in 木火土金水. */
  function Helping(dayElement: string): (r: seq<string>)
    requires dayElement in GenerationCycle
    ensures |r| == 2 && r[0] == dayElement && r[1] in GenerationCycle
    ensures GenerationCycle[(CycleIndex(r[1]) + 1) % 5] == dayElement
  {
    [dayElement, GenerationCycle[(CycleIndex(dayElement) - 1) % 5]]
  }

  /** analyze_wuxing: `weakening_wuxing`, the elements one and two after the day element in 木火土金水, then the day element. */
  function Weakening(dayElement: string): (r: seq<string>)
    requires dayElement in GenerationCycle
    ensures |r| == 3 && r[2] == dayElement
    ensures forall x :: x in r ==> x in GenerationCycle
  {
    [GenerationCycle[(CycleIndex(dayElement) + 1) % 5], GenerationCycle[(CycleIndex(dayElement) + 2) % 5], dayElement]
  }

  /** The result of analyze_wuxing. */
  datatype WuxingAnalysis = WuxingAnalysis(
    counts: map<string, nat>,
    helping: seq<string>,
    weakening: seq<string>,
    missing: seq<string>)

  /**
   * analyze_wuxing: tallies the elements of the eight characters, then derives
   * helping, weakening and missing elements from the day stem's element.
   */
  method AnalyzeWuxing(bazi: Bazi) returns (r: Result<WuxingAnalysis>)
    ensures PillarElements(Pillars(bazi)).Err? ==> r == Err(PillarElements(Pillars(bazi)).error)
    ensures PillarElements(Pillars(bazi)).Ok? ==>
      var elems := PillarElements(Pillars(bazi)).value;
      r.Ok? && r.value.counts == Tally(elems)
      && r.value.helping == Helping(elems[4]) && r.value.weakening == Weakening(elems[4])
      && r.value.missing == Missing(Tally(elems))
  {
    var pillars := Pillars(bazi);
    var counts: map<string, nat> := map[Metal := 0, Wood := 0, Water := 0, Fire := 0, Earth := 0];
    ghost var elems: seq<string> := [];
    PrependNothing(pillars);
    for i := 0 to 4
      invariant PillarElements(pillars) == PrependElements(elems, PillarElements(pillars[i..]))
      invariant |elems| == 2 * i && forall x :: x in elems ==> x in GenerationCycle
      invariant counts == Tally(elems)
    {
      var pillar := pillars[i];
      PillarElementsStep(pillars, i, elems);
      if |pillar| < 1 || pillar[0] !in Wuxing {
        return if |pillar| < 1 then Err(IndexError) else Err(KeyError);
      }
      var stem := Wuxing[pillar[0]];
      WuxingValues(pillar[0]);
      TallyStep(elems, stem);
      counts := counts[stem := counts[stem] + 1];
      elems := elems + [stem];
      if |pillar| < 2 || pillar[1] !in Wuxing {
        return if |pillar| < 2 then Err(IndexError) else Err(KeyError);
      }
      var branch := Wuxing[pillar[1]];
      WuxingValues(pillar[1]);
      assert GetWuxing(pillar) == Ok((stem, branch));
      TallyStep(elems, branch);
      counts := counts[branch := counts[branch] + 1];
      elems := elems + [branch];
    }
    DayElement(bazi, elems);
    var dayElement := Wuxing[bazi.day[0]];
    var analysis := WuxingAnalysis(counts, Helping(dayElement), Weakening(dayElement), Missing(counts));
    return Ok(analysis);
  }

  /** After the loop: the four pillars gave `elems`, and the day stem's element is the fifth of them. */
  lemma DayElement(bazi: Bazi, elems: seq<string>)
    requires PillarElements(Pillars(bazi)) == PrependElements(elems, PillarElements(Pillars(bazi)[4..]))
    ensures PillarElements(Pillars(bazi)) == Ok(elems)
    ensures |bazi.day| >= 1 && bazi.day[0] in Wuxing && |elems| == 8 && Wuxing[bazi.day[0]] == elems[4]
    ensures elems[4] in GenerationCycle
  {
    assert Pillars(bazi)[4..] == [];
    assert elems + [] == elems;
    PillarElementsMeaning(Pillars(bazi), 2);
  }

  /** For a chart that analyze_wuxing accepts, the element counts add up to eight. */
  lemma CountsSumToEight(bazi: Bazi)
    requires PillarElements(Pillars(bazi)).Ok?
    ensures CountTotal(Tally(PillarElements(Pillars(bazi)).value)) == 8
  {
    TallyTotal(PillarElements(Pillars(bazi)).value);
  }

  /**
   * Helping and weakening against the canonical registry: the second helping
   * element generates the day element; the day element generates the first
   * weakening element and overcomes the second, so the second is not the
   * element that overcomes the day element.
   */
  lemma HelpingWeakeningMeaning(dayElement: string)
    requires dayElement in GenerationCycle
    ensures Next(CanonicalElements, Helping(dayElement)[1], Generates) == Some(dayElement)
    ensures Next(CanonicalElements, dayElement, Generates) == Some(Weakening(dayElement)[0])
    ensures Next(CanonicalElements, dayElement, Overcomes) == Some(Weakening(dayElement)[1])
    ensures Next(CanonicalElements, Weakening(dayElement)[1], Overcomes) != Some(dayElement)
  {
    var i := CycleIndex(dayElement);
    HelpingWeakeningAt(i);
    CanonicalBack(i);
    CanonicalStep(i, Generates);
    CanonicalStep(i, Overcomes);
    CanonicalSecondOvercomes(i);
    CycleArith(i);
    CycleDistinct((i + 4) % 5, i);
  }

  /** Helping and weakening of the element at position i, as positions of GenerationCycle. */
  lemma HelpingWeakeningAt(i: nat)
    requires i < 5
    ensures Helping(GenerationCycle[i])[1] == GenerationCycle[(i + 4) % 5]
    ensures Weakening(GenerationCycle[i]) == [GenerationCycle[(i + 1) % 5], GenerationCycle[(i + 2) % 5], GenerationCycle[i]]
  {
    CycleIndexOf(i);
    CycleArith(i);
  }

  /** CycleIndex finds each position's own element. */
  lemma CycleIndexOf(i: nat)
    requires i < 5
    ensures CycleIndex(GenerationCycle[i]) == i
  {
    var j := CycleIndex(GenerationCycle[i]);
    if j != i {
      CycleDistinct(i, j);
    }
  }

  /** On the canonical registry, the element before position i generates it. */
  lemma CanonicalBack(i: nat)
    requires i < 5
    ensures Next(CanonicalElements, GenerationCycle[(i + 4) % 5], Generates) == Some(GenerationCycle[i])
  {
    CanonicalStep((i + 4) % 5, Generates);
    CycleArith(i);
  }

  /** On the canonical registry, the element three places on overcomes the element at position i. */
  lemma CanonicalOvercomer(i: nat)
    requires i < 5
    ensures Next(CanonicalElements, GenerationCycle[(i + 3) % 5], Overcomes) == Some(GenerationCycle[i])
  {
    CanonicalStep((i + 3) % 5, Overcomes);
    CycleArith(i);
  }

  /** On the canonical registry, the element two places on overcomes the one four places on. */
  lemma CanonicalSecondOvercomes(i: nat)
    requires i < 5
    ensures Next(CanonicalElements, GenerationCycle[(i + 2) % 5], Overcomes) == Some(GenerationCycle[(i + 4) % 5])
  {
    CanonicalStep((i + 2) % 5, Overcomes);
    CycleArith(i);
  }

  /** The residues the cycle lemmas need, for each position of the five-element cycle. */
  lemma CycleArith(i: int)
    requires 0 <= i < 5
    ensures (i - 1) % 5 == (i + 4) % 5
    ensures ((i + 4) % 5 + 1) % 5 == i && ((i + 3) % 5 + 2) % 5 == i
    ensures ((i + 2) % 5 + 2) % 5 == (i + 4) % 5 != i
    ensures (i + 3) % 5 != i && (i + 3) % 5 != (i + 1) % 5 && (i + 3) % 5 != (i + 2) % 5
  {
  }

  /** The five element names are pairwise different. */
  lemma CycleDistinct(a: nat, b: nat)
    requires a < 5 && b < 5 && a != b
    ensures GenerationCycle[a] != GenerationCycle[b]
  {
  }

  /** Where each element stands in the overcoming order 木土水火金, and which element precedes it there. */
  function OvercomingIndex(i: nat): (oi: nat)
    requires i < 5
    ensures oi < 5 && OvercomingFromWood[oi] == GenerationCycle[i]
    ensures OvercomingFromWood[(oi - 1) % 5] == GenerationCycle[(i + 3) % 5]
  {
    if i == 0 then 0 else if i == 1 then 3 else if i == 2 then 1 else if i == 3 then 4 else 2
  }

  /** get_weakening_elements on the canonical orders, as positions of GenerationCycle. */
  lemma GetWeakeningAt(i: nat)
    requires i < 5
    ensures GetWeakeningElements(GenerationCycle, OvercomingFromWood, GenerationCycle[i]).Ok?
    ensures GetWeakeningElements(GenerationCycle, OvercomingFromWood, GenerationCycle[i]).value.0
      == [GenerationCycle[(i + 3) % 5], GenerationCycle[(i + 1) % 5], GenerationCycle[i]]
  {
    var oi := OvercomingIndex(i);
    CycleArith(i);
    assert Distinct(GenerationCycle) by {
      forall a, b | 0 <= a < b < 5 ensures GenerationCycle[a] != GenerationCycle[b] {
        CycleDistinct(a, b);
      }
    }
    assert Distinct(OvercomingFromWood) by {
      forall a, b | 0 <= a < b < 5 ensures OvercomingFromWood[a] != OvercomingFromWood[b] {
        assert OvercomingPosition(a) != OvercomingPosition(b);
        CycleDistinct(OvercomingPosition(a), OvercomingPosition(b));
      }
    }
    IndexOfDistinct(GenerationCycle, i);
    IndexOfDistinct(OvercomingFromWood, oi);
  }

  /** The position in GenerationCycle of the m-th entry of 木土水火金. */
  function OvercomingPosition(m: nat): (i: nat)
    requires m < 5
    ensures i < 5 && OvercomingFromWood[m] == GenerationCycle[i]
  {
    (2 * m) % 5
  }

  /**
   * analyze_wuxing and get_weakening_elements disagree on the canonical
   * orders: the latter lists first the element that overcomes the day element,
   * which the former never lists, so the two lists differ for every day element.
   */
  lemma WeakeningTwinsDisagree(dayElement: string)
    requires dayElement in GenerationCycle
    ensures GetWeakeningElements(GenerationCycle, OvercomingFromWood, dayElement).Ok?
    ensures var w := GetWeakeningElements(GenerationCycle, OvercomingFromWood, dayElement).value.0;
      Next(CanonicalElements, w[0], Overcomes) == Some(dayElement)
      && w[0] !in Weakening(dayElement) && w[1] == Weakening(dayElement)[0] && w != Weakening(dayElement)
  {
    var i := CycleIndex(dayElement);
    GetWeakeningAt(i);
    CanonicalOvercomer(i);
    WeakeningTwinsAt(i);
  }

  /** The two weakening lists for the element at position i. */
  lemma WeakeningTwinsAt(i: nat)
    requires i < 5
    ensures var w := [GenerationCycle[(i + 3) % 5], GenerationCycle[(i + 1) % 5], GenerationCycle[i]];
      w[0] !in Weakening(GenerationCycle[i]) && w[1] == Weakening(GenerationCycle[i])[0]
      && w != Weakening(GenerationCycle[i])
  {
    HelpingWeakeningAt(i);
    CycleArith(i);
    CycleDistinct((i + 3) % 5, i);
    CycleDistinct((i + 3) % 5, (i + 1) % 5);
    CycleDistinct((i + 3) % 5, (i + 2) % 5);
  }

  // ----- analyze_missing_wuxing ----------------------------------------------

  /** The impact sentence of each element, in the order the source checks them. */
  const ImpactTable: seq<(string, string)> := [
    (Wood, "缺木可能影响决断力和创新能力"),
    (Fire, "缺火可能影响人际关系和表现力"),
    (Earth, "缺土可能影响稳定性和健康"),
    (Metal, "缺金可能影响事业和财运"),
    (Water, "缺水可能影响智慧和灵活性")
  ]

  /** The impact sentences of the table entries whose element is in `missing`, in table order. */
  function ImpactsOf(table: seq<(string, string)>, missing: seq<string>): (r: seq<string>)
    ensures |r| <= |table|
    ensures forall j :: 0 <= j < |table| && table[j].0 in missing ==> table[j].1 in r
    ensures forall x :: x in r ==> exists j :: 0 <= j < |table| && table[j].1 == x && table[j].0 in missing
  {
    if table == [] then []
    else
      var last := table[|table| - 1];
      ImpactsOf(table[..|table| - 1], missing) + (if last.0 in missing then [last.1] else [])
  }

  /** The sentences of a table split in two are those of each part in turn. */
  lemma {:induction false} ImpactsOfAppend(t1: seq<(string, string)>, t2: seq<(string, string)>, missing: seq<string>)
    ensures ImpactsOf(t1 + t2, missing) == ImpactsOf(t1, missing) + ImpactsOf(t2, missing)
    decreases |t2|
  {
    if t2 == [] {
      assert t1 + t2 == t1;
    } else {
      var init, last := t2[..|t2| - 1], t2[|t2| - 1];
      assert (t1 + t2)[..|t1 + t2| - 1] == t1 + init;
      assert (t1 + t2)[|t1 + t2| - 1] == last;
      ImpactsOfAppend(t1, init, missing);
      var tail := if last.0 in missing then [last.1] else [];
      assert ImpactsOf(t1, missing) + ImpactsOf(init, missing) + tail
        == ImpactsOf(t1, missing) + (ImpactsOf(init, missing) + tail);
    }
  }

  /** The sentence of one table entry. */
  function ImpactEntry(entry: (string, string), missing: seq<string>): seq<string>
  {
    if entry.0 in missing then [entry.1] else []
  }

  /** The sentences of a one-entry table. */
  lemma ImpactsOfSingle(entry: (string, string), missing: seq<string>)
    ensures ImpactsOf([entry], missing) == ImpactEntry(entry, missing)
  {
    assert [entry][..0] == [];
  }

  /**
   * analyze_missing_wuxing tests 木, 火, 土, 金, 水 in turn: each missing element
   * contributes its own sentence exactly once, in that order.
   */
  lemma ImpactsInOrder(missing: seq<string>)
    ensures ImpactsOf(ImpactTable, missing)
      == ImpactEntry(ImpactTable[0], missing) + ImpactEntry(ImpactTable[1], missing) + ImpactEntry(ImpactTable[2], missing)
         + ImpactEntry(ImpactTable[3], missing) + ImpactEntry(ImpactTable[4], missing)
  {
    var t := ImpactTable;
    assert t[..2] == t[..1] + [t[1]] && t[..3] == t[..2] + [t[2]] && t[..4] == t[..3] + [t[3]] && t == t[..4] + [t[4]];
    assert t[..1] == [t[0]];
    ImpactsOfSingle(t[0], missing);
    ImpactsOfSingle(t[1], missing);
    ImpactsOfSingle(t[2], missing);
    ImpactsOfSingle(t[3], missing);
    ImpactsOfSingle(t[4], missing);
    ImpactsOfAppend(t[..1], [t[1]], missing);
    ImpactsOfAppend(t[..2], [t[2]], missing);
    ImpactsOfAppend(t[..3], [t[3]], missing);
    ImpactsOfAppend(t[..4], [t[4]], missing);
  }

  /** The text returned when no element is missing. */
  const Complete: string := "五行俱全，影响不大"

  /**
   * analyze_missing_wuxing: one sentence per missing element in the fixed order
   * 木火土金水, joined by "；", or the "complete" text. The gender is not used.
   */
  method AnalyzeMissingWuxing(missing: seq<string>, gender: string) returns (s: string)
    ensures (forall e :: e in GenerationCycle ==> e !in missing) <==> s == Complete
    ensures s != Complete ==> s == Text.Join("；", ImpactsOf(ImpactTable, missing))
  {
    var impacts: seq<string> := [];
    ImpactTablePrefixes();
    if Wood in missing {
      impacts := impacts + [ImpactTable[0].1];
    }
    assert impacts == ImpactsOf(ImpactTable[..1], missing);
    if Fire in missing {
      impacts := impacts + [ImpactTable[1].1];
    }
    assert impacts == ImpactsOf(ImpactTable[..2], missing);
    if Earth in missing {
      impacts := impacts + [ImpactTable[2].1];
    }
    assert impacts == ImpactsOf(ImpactTable[..3], missing);
    if Metal in missing {
      impacts := impacts + [ImpactTable[3].1];
    }
    assert impacts == ImpactsOf(ImpactTable[..4], missing);
    if Water in missing {
      impacts := impacts + [ImpactTable[4].1];
    }
    assert impacts == ImpactsOf(ImpactTable, missing);
    ImpactsEmpty(missing);
    ImpactsNotComplete(missing);
    s := if impacts == [] then Complete else Text.Join("；", impacts);
  }

  /** The prefixes of the impact table, each one entry longer than the last. */
  lemma ImpactTablePrefixes()
    ensures ImpactTable[..1][..0] == [] && ImpactTable[..2][..1] == ImpactTable[..1]
    ensures ImpactTable[..3][..2] == ImpactTable[..2] && ImpactTable[..4][..3] == ImpactTable[..3]
    ensures ImpactTable[..4] == ImpactTable[..|ImpactTable| - 1]
  {
  }

  /** No impact sentence exactly when no element is missing. */
  lemma ImpactsEmpty(missing: seq<string>)
    ensures ImpactsOf(ImpactTable, missing) == [] <==> forall e :: e in GenerationCycle ==> e !in missing
  {
    var r := ImpactsOf(ImpactTable, missing);
    if r == [] {
      forall e | e in GenerationCycle ensures e !in missing {
        var i := CycleIndex(e);
        assert ImpactTable[i].0 == e;
      }
    } else {
      assert r[0] in r;
      var j :| 0 <= j < |ImpactTable| && ImpactTable[j].1 == r[0] && ImpactTable[j].0 in missing;
      assert ImpactTable[j].0 in GenerationCycle;
    }
  }

  /** No joined list of impact sentences is the "complete" text. */
  lemma ImpactsNotComplete(missing: seq<string>)
    ensures ImpactsOf(ImpactTable, missing) != [] ==> Text.Join("；", ImpactsOf(ImpactTable, missing)) != Complete
  {
    var r := ImpactsOf(ImpactTable, missing);
    if r != [] {
      assert r[0] in r;
      var j :| 0 <= j < |ImpactTable| && ImpactTable[j].1 == r[0] && ImpactTable[j].0 in missing;
      var joined := Text.Join("；", r);
      assert joined[..|r[0]|] == r[0];
      assert r[0][0] == '缺';
      assert Complete[0] == '五';
    }
  }
}

=== FILE: hand_technique.dfy ===
/**
 * The three-transmission technique of src/hand_technique.py: three numbers are
 * counted round a ring of nine symbols, each count starting where the previous
 * one ended, and each adjacent pair of the resulting symbols is labelled by the
 * five-element link between their elements.
 */
module HandTechnique {
  import opened Elements

  /** The fields of a symbol record the calculator reads: its name and its element. */
  datatype Symbol = Symbol(name: string, element: ElementInfo)

  /** Number of cells on the ring of symbols. */
  const RingSize: nat := 9

  /** The cell reached by counting `steps` cells, the first count landing on `start` itself. */
  function EndPosition(start: int, steps: int): (p: nat)
    ensures p < RingSize
    ensures (start + steps - 1 - p) % RingSize == 0
  {
    (start + steps - 1) % RingSize
  }

  /** `__calculate_symbol`: the symbol at the end of a count of `steps` from `start`. */
  function CalculateSymbol(symbols: seq<Symbol>, start: int, steps: int): Symbol
    requires |symbols| == RingSize
  {
    symbols[EndPosition(start, steps)]
  }

  /** Counting one cell stops on the starting cell. */
  lemma OneStepStaysPut(symbols: seq<Symbol>, start: nat)
    requires |symbols| == RingSize && start < RingSize
    ensures CalculateSymbol(symbols, start, 1) == symbols[start]
  {
  }

  /** Shifting a residue: `(a % 9 + b) % 9 == (a + b) % 9`. */
  lemma {:induction false} ModShift(a: int, b: int)
    ensures (a % RingSize + b) % RingSize == (a + b) % RingSize
  {
    var q := a / RingSize;
    assert a == RingSize * q + a % RingSize;
    RingTurns(a % RingSize + b, q);
  }

  /** Adding whole turns of the ring does not change the cell. */
  lemma {:induction false} RingTurns(x: int, k: int)
    ensures (x + RingSize * k) % RingSize == x % RingSize
    decreases if k < 0 then -k else k
  {
    if k > 0 {
      RingTurns(x, k - 1);
      assert x + RingSize * k == (x + RingSize * (k - 1)) + RingSize;
    } else if k < 0 {
      RingTurns(x, k + 1);
      assert x + RingSize * k == (x + RingSize * (k + 1)) - RingSize;
    }
  }

  /** The ring has period nine: `steps` and `steps + 9` pick the same symbol. */
  lemma {:induction false} RingPeriod(symbols: seq<Symbol>, start: int, steps: int)
    requires |symbols| == RingSize
    ensures CalculateSymbol(symbols, start, steps + RingSize) == CalculateSymbol(symbols, start, steps)
  {
    RingTurns(start + steps - 1, 1);
  }

  /**
   * `__generate_prediction`: the first count starts at cell 0, the second at
   * `(n1 - 1) % 9` and the third at `(n1 + n2 - 2) % 9`. The three symbols sit at
   * the closed-form cells `(n1 - 1) % 9`, `(n1 + n2 - 2) % 9` and
   * `(n1 + n2 + n3 - 3) % 9`.
   */
  function GeneratePrediction(symbols: seq<Symbol>, n1: int, n2: int, n3: int): (r: seq<Symbol>)
    requires |symbols| == RingSize
    ensures |r| == 3
    ensures r[0] == symbols[(n1 - 1) % RingSize]
    ensures r[1] == symbols[(n1 + n2 - 2) % RingSize]
    ensures r[2] == symbols[(n1 + n2 + n3 - 3) % RingSize]
  {
    ModShift(n1 - 1, n2 - 1);
    ModShift(n1 + n2 - 2, n3 - 1);
    [CalculateSymbol(symbols, 0, n1),
     CalculateSymbol(symbols, (n1 - 1) % RingSize, n2),
     CalculateSymbol(symbols, (n1 + n2 - 2) % RingSize, n3)]
  }

  /**
   * The stages chain: the second count starts on the cell where the first one
   * ended, and the third on the cell where the second one ended.
   */
  lemma {:induction false} PredictionChains(symbols: seq<Symbol>, n1: int, n2: int, n3: int)
    requires |symbols| == RingSize
    ensures (n1 - 1) % RingSize == EndPosition(0, n1)
    ensures (n1 + n2 - 2) % RingSize == EndPosition(EndPosition(0, n1), n2)
    ensures GeneratePrediction(symbols, n1, n2, n3)
            == [CalculateSymbol(symbols, 0, n1),
                CalculateSymbol(symbols, EndPosition(0, n1), n2),
                CalculateSymbol(symbols, EndPosition(EndPosition(0, n1), n2), n3)]
  {
    ModShift(n1 - 1, n2 - 1);
  }

  const Sheng: string := "生"
  const Ke: string := "克"
  const Wu: string := "无"

  /** `__is_generating`. */
  predicate IsGenerating(e1: ElementInfo, e2: ElementInfo)
  {
    e1.generates == e2.name
  }

  /** `__is_overcoming`. */
  predicate IsOvercoming(e1: ElementInfo, e2: ElementInfo)
  {
    e1.overcomes == e2.name
  }

  /** The label of one pair: 生 when the first generates the second, else 克 when it overcomes it, else 无. */
  function Relation(e1: ElementInfo, e2: ElementInfo): (r: string)
    ensures r in {Sheng, Ke, Wu}
    ensures r == Sheng <==> IsGenerating(e1, e2)
    ensures r == Ke <==> !IsGenerating(e1, e2) && IsOvercoming(e1, e2)
    ensures r == Wu <==> !IsGenerating(e1, e2) && !IsOvercoming(e1, e2)
  {
    if IsGenerating(e1, e2) then Sheng else if IsOvercoming(e1, e2) then Ke else Wu
  }

  /** `__get_relations`: the labels of the pairs (0, 1) and (1, 2), in that order. */
  method GetRelations(symbols: seq<Symbol>) returns (relations: seq<string>)
    requires |symbols| >= 3
    ensures |relations| == 2
    ensures forall i :: 0 <= i < 2 ==> relations[i] == Relation(symbols[i].element, symbols[i + 1].element)
  {
    relations := [];
    for i := 0 to 2
      invariant |relations| == i
      invariant forall k :: 0 <= k < i ==> relations[k] == Relation(symbols[k].element, symbols[k + 1].element)
    {
      var relation: string;
      if IsGenerating(symbols[i].element, symbols[i + 1].element) {
        relation := Sheng;
      } else if IsOvercoming(symbols[i].element, symbols[i + 1].element) {
        relation := Ke;
      } else {
        relation := Wu;
      }
      relations := relations + [relation];
    }
  }

  /**
   * On the canonical registry the label is decided by the distance round the
   * generation cycle: 生 one step on, 克 two steps on, 无 otherwise (the element
   * itself and the two elements behind it). In particular the two links never
   * both match, so the order of the checks does not matter.
   */
  lemma {:induction false} CanonicalRelation(i: nat, j: nat)
    requires i < 5 && j < 5
    ensures Relation(CanonicalElements[i], CanonicalElements[j]) == Sheng <==> j == (i + 1) % 5
    ensures Relation(CanonicalElements[i], CanonicalElements[j]) == Ke <==> j == (i + 2) % 5
    ensures Relation(CanonicalElements[i], CanonicalElements[j]) == Wu <==> j != (i + 1) % 5 && j != (i + 2) % 5
    ensures !(IsGenerating(CanonicalElements[i], CanonicalElements[j]) && IsOvercoming(CanonicalElements[i], CanonicalElements[j]))
  {
    CanonicalLinks(i);
    CanonicalLinks(j);
    CycleNamesDistinct((i + 1) % 5, j);
    CycleNamesDistinct((i + 2) % 5, j);
  }

  /** The five names of the generation cycle are pairwise different. */
  lemma CycleNamesDistinct(a: nat, b: nat)
    requires a < 5 && b < 5
    ensures GenerationCycle[a] == GenerationCycle[b] <==> a == b
  {
  }
}

=== FILE: lists.dfy ===
/** Python's `list.index`, which the modelled code uses for every reverse lookup. */
module Lists {
  import opened Wrappers

  /** `s.index(x)`: the first position holding `x`, or ValueError when there is none. */
  function IndexOf<T(==)>(s: seq<T>, x: T): (r: Result<nat>)
    ensures r.Err? <==> x !in s
    ensures r.Err? ==> r.error == ValueError
    ensures r.Ok? ==> r.value < |s| && s[r.value] == x
    ensures r.Ok? ==> forall k :: 0 <= k < r.value ==> s[k] != x
  {
    if |s| == 0 then Err(ValueError)
    else if s[0] == x then Ok(0)
    else match IndexOf(s[1..], x)
      case Err(e) => Err(e)
      case Ok(i) => Ok(i + 1)
  }

  /** No value occurs twice in `s`. */
  predicate Distinct<T(==)>(s: seq<T>)
  {
    forall i, j :: 0 <= i < j < |s| ==> s[i] != s[j]
  }

  /** In a list without repeats, `index` finds each position's own value at that position. */
  lemma IndexOfDistinct<T>(s: seq<T>, i: nat)
    requires Distinct(s) && i < |s|
    ensures IndexOf(s, s[i]) == Ok(i)
  {
  }

  /** `[x for x in s if p(x)]`: the entries of `s` that satisfy `p`, in their order. */
  function Keep<T(!new)>(s: seq<T>, p: T -> bool): (r: seq<T>)
    ensures |r| <= |s|
  {
    if s == [] then [] else (if p(s[0]) then [s[0]] else []) + Keep(s[1..], p)
  }

  /** What is kept is exactly the entries of `s` that satisfy `p`. */
  lemma {:induction false} KeepMembers<T(!new)>(s: seq<T>, p: T -> bool)
    ensures forall x :: x in Keep(s, p) <==> x in s && p(x)
  {
    if s != [] {
      KeepMembers(s[1..], p);
    }
  }

  /** Filtering distributes over concatenation, so the kept entries keep their input order. */
  lemma {:induction false} KeepAppend<T(!new)>(a: seq<T>, b: seq<T>, p: T -> bool)
    ensures Keep(a + b, p) == Keep(a, p) + Keep(b, p)
  {
    if a != [] {
      assert (a + b)[1..] == a[1..] + b;
      KeepAppend(a[1..], b, p);
    } else {
      assert a + b == b;
    }
  }

  /** A list whose entries all satisfy `p` is kept whole. */
  lemma {:induction false} KeepAll<T(!new)>(s: seq<T>, p: T -> bool)
    requires forall x :: x in s ==> p(x)
    ensures Keep(s, p) == s
  {
    if s != [] {
      KeepAll(s[1..], p);
    }
  }

  /** Nothing is kept from a list none of whose entries satisfy `p`. */
  lemma KeepNone<T(!new)>(s: seq<T>, p: T -> bool)
    requires forall x :: x in s ==> !p(x)
    ensures Keep(s, p) == []
  {
    KeepMembers(s, p);
    if Keep(s, p) != [] {
      assert Keep(s, p)[0] in Keep(s, p);
    }
  }
}

=== FILE: text.dfy ===
/**
 * String helpers that stand for the Python built-ins the modelled code
 * relies on: `str.join`, `str(n)` for a non-negative `n`, `str.strip`,
 * `str.isspace`, and the CJK range test `'一' <= c <= '鿿'`.
 */
module Text {

  /** `'一' <= c <= '鿿'`: the CJK Unified Ideographs block. */
  predicate IsCjk(c: char)
  {
    '\U{4E00}' <= c <= '\U{9FFF}'
  }

  /** Python's `str.isspace` on one character: the Unicode whitespace set. */
  predicate IsSpace(c: char)
  {
    c == ' ' || c == '\t' || c == '\n' || c == '\r' || c == '\U{000B}' || c == '\U{000C}'
    || ('\U{001C}' <= c <= '\U{001F}') || c == '\U{0085}' || c == '\U{00A0}' || c == '\U{1680}'
    || ('\U{2000}' <= c <= '\U{200A}') || c == '\U{2028}' || c == '\U{2029}' || c == '\U{202F}'
    || c == '\U{205F}' || c == '\U{3000}'
  }

  /** `sep.join(parts)`. */
  function Join(sep: string, parts: seq<string>): (r: string)
    ensures parts == [] ==> r == []
    ensures |parts| == 1 ==> r == parts[0]
    ensures |parts| > 0 ==> |parts[0]| <= |r| && r[..|parts[0]|] == parts[0]
  {
    if |parts| == 0 then ""
    else if |parts| == 1 then parts[0]
    else parts[0] + sep + Join(sep, parts[1..])
  }

  /** Removes leading whitespace, as the left half of `str.strip`: what is left does not start with whitespace. */
  function StripLeft(s: string): (r: string)
    ensures |r| <= |s|
    ensures r == [] || !IsSpace(r[0])
  {
    if s != [] && IsSpace(s[0]) then StripLeft(s[1..]) else s
  }

  /** Removes trailing whitespace, as the right half of `str.strip`: what is left does not end with whitespace. */
  function StripRight(s: string): (r: string)
    ensures |r| <= |s|
    ensures r == [] || !IsSpace(r[|r| - 1])
  {
    if s != [] && IsSpace(s[|s| - 1]) then StripRight(s[..|s| - 1]) else s
  }

  /** StripLeft keeps a suffix of its input and removes only whitespace before it. */
  lemma {:induction false} StripLeftRemovesSpace(s: string)
    ensures StripLeft(s) == s[|s| - |StripLeft(s)|..]
    ensures forall k :: 0 <= k < |s| - |StripLeft(s)| ==> IsSpace(s[k])
  {
    if s != [] && IsSpace(s[0]) {
      StripLeftRemovesSpace(s[1..]);
      assert s[1..][|s| - 1 - |StripLeft(s)|..] == s[|s| - |StripLeft(s)|..];
      forall k | 1 <= k < |s| - |StripLeft(s)| ensures IsSpace(s[k]) {
        assert s[k] == s[1..][k - 1];
      }
    }
  }

  /** StripRight keeps a prefix of its input and removes only whitespace after it. */
  lemma {:induction false} StripRightRemovesSpace(s: string)
    ensures StripRight(s) == s[..|StripRight(s)|]
    ensures forall k :: |StripRight(s)| <= k < |s| ==> IsSpace(s[k])
  {
    if s != [] && IsSpace(s[|s| - 1]) {
      StripRightRemovesSpace(s[..|s| - 1]);
      assert s[..|s| - 1][..|StripRight(s)|] == s[..|StripRight(s)|];
    }
  }

  /** `s.strip()`: neither starts nor ends with whitespace. */
  function Strip(s: string): (r: string)
    ensures |r| <= |s|
    ensures r == [] || (!IsSpace(r[0]) && !IsSpace(r[|r| - 1]))
  {
    var l := StripLeft(s);
    StripRightRemovesSpace(l);
    var r := StripRight(l);
    assert r != [] ==> r[0] == l[0];
    r
  }

  /**
   * What `strip` keeps is a contiguous slice of the input, and everything
   * outside the slice is whitespace.
   */
  lemma StripIsSlice(s: string)
    ensures var i := |s| - |StripLeft(s)|;
      var j := i + |Strip(s)|;
      j <= |s| && Strip(s) == s[i..j]
      && (forall k :: 0 <= k < i ==> IsSpace(s[k]))
      && (forall k :: j <= k < |s| ==> IsSpace(s[k]))
  {
    var l := StripLeft(s);
    StripLeftRemovesSpace(s);
    StripRightRemovesSpace(l);
    var i := |s| - |l|;
    var j := i + |Strip(s)|;
    assert l[..|Strip(s)|] == s[i..j];
    forall k | j <= k < |s| ensures IsSpace(s[k]) {
      assert s[k] == l[k - i];
    }
  }

  /** The decimal digit of `d`. */
  function Digit(d: nat): (c: char)
    requires d < 10
    ensures '0' <= c <= '9' && c as int - '0' as int == d
  {
    ('0' as int + d) as char
  }

  /** `str(n)` for a non-negative integer: its decimal digits, most significant first. */
  function NatToString(n: nat): (r: string)
    ensures r != []
    ensures forall k :: 0 <= k < |r| ==> '0' <= r[k] <= '9'
    decreases n
  {
    if n < 10 then [Digit(n)] else NatToString(n / 10) + [Digit(n % 10)]
  }

  /** The value of a string of decimal digits (`int(s)` on digits only). */
  function DigitsValue(s: string): int
  {
    if s == [] then 0 else 10 * DigitsValue(s[..|s| - 1]) + (s[|s| - 1] as int - '0' as int)
  }

  /** `int(str(n)) == n`: the decimal rendering of a count reads back as that count. */
  lemma {:induction false} NatToStringRoundTrip(n: nat)
    ensures DigitsValue(NatToString(n)) == n
    decreases n
  {
    var r := NatToString(n);
    if n >= 10 {
      NatToStringRoundTrip(n / 10);
      assert r[..|r| - 1] == NatToString(n / 10);
    } else {
      assert r[..|r| - 1] == [];
    }
  }
}

=== FILE: web_validation.dfy ===
/**
 * The input checks of the web front end (src/web.py): three typed numbers,
 * a date and time turned into three numbers, and a text whose first three
 * CJK characters are counted by stroke. Parsing (`int`, `datetime.strptime`)
 * and the stroke dictionary are library or disk look-ups; their outcomes are
 * parameters here.
 */
module WebValidation {
  import opened Wrappers
  import opened Lists
  import opened Text

  /** The `(ok, message, numbers)` triple every validator returns. */
  datatype Validation = Validation(ok: bool, message: string, numbers: seq<int>)

  const RangeMessage: string := "数字必须在1-9之间"
  const ParseMessage: string := "请输入有效数字"

  /** Every entry is a count from 1 to 9. */
  predicate AllInRange(nums: seq<int>)
  {
    forall i :: 0 <= i < |nums| ==> 1 <= nums[i] <= 9
  }

  /**
   * `_validate_numbers`: each argument is the outcome of `int()` on one input
   * field, None when it raised ValueError. Any unparsable field gives the parse
   * message; otherwise the numbers pass unchanged, in order, when all lie in
   * [1, 9], and give the range message when one does not.
   */
  function ValidateNumbers(n1: Option<int>, n2: Option<int>, n3: Option<int>): (r: Validation)
    ensures r.ok <==> n1.Some? && n2.Some? && n3.Some? && AllInRange([n1.value, n2.value, n3.value])
    ensures r.ok ==> r.message == "" && r.numbers == [n1.value, n2.value, n3.value]
    ensures !r.ok ==> r.numbers == []
    ensures !r.ok ==> (r.message == ParseMessage <==> n1.None? || n2.None? || n3.None?)
    ensures !r.ok ==> (r.message == RangeMessage <==> n1.Some? && n2.Some? && n3.Some?)
  {
    if n1.None? || n2.None? || n3.None? then Validation(false, ParseMessage, [])
    else
      var nums := [n1.value, n2.value, n3.value];
      if AllInRange(nums) then Validation(true, "", nums) else Validation(false, RangeMessage, [])
  }

  const EmptyDateMessage: string := "请选择日期和时间"
  const DateFormatMessage: string := "日期或时间格式错误"

  /** The fields of the parsed date and time that the numbers use. */
  datatype DateParts = DateParts(month: int, day: int, hour: int)

  /**
   * The three numbers of a date and time: the month and the day folded
   * into 1..9, and the hour of a 12-hour clock taken in two-hour steps.
   */
  function DateNumbers(d: DateParts): (nums: seq<int>)
    ensures |nums| == 3 && AllInRange(nums)
    ensures 1 <= nums[2] <= 6
  {
    [(d.month - 1) % 9 + 1, (d.day - 1) % 9 + 1, (d.hour % 12) / 2 + 1]
  }

  /**
   * The month and the day count round a ring of nine, and the hour round a
   * twelve-hour clock: adding nine months, nine days or twelve hours gives
   * the same numbers; the first two numbers are the month and the day
   * themselves when those lie in 1..9.
   */
  lemma {:induction false} DateNumbersPeriodic(d: DateParts)
    ensures DateNumbers(DateParts(d.month + 9, d.day + 9, d.hour + 12)) == DateNumbers(d)
    ensures 1 <= d.month <= 9 ==> DateNumbers(d)[0] == d.month
    ensures 1 <= d.day <= 9 ==> DateNumbers(d)[1] == d.day
  {
    NineShift(d.month - 1);
    NineShift(d.day - 1);
    TwelveShift(d.hour);
  }

  /** Adding nine does not change a residue modulo nine. */
  lemma NineShift(x: int)
    ensures (x + 9) % 9 == x % 9
  {
  }

  /** Adding twelve does not change a residue modulo twelve. */
  lemma TwelveShift(x: int)
    ensures (x + 12) % 12 == x % 12
  {
  }

  /**
   * `_validate_date_time`: an empty date or time string is refused first;
   * `parsed` is the outcome of parsing the two strings (None when parsing
   * raised ValueError).
   */
  function ValidateDateTime(dateStr: string, timeStr: string, parsed: Option<DateParts>): (r: Validation)
    ensures r.ok <==> dateStr != "" && timeStr != "" && parsed.Some?
    ensures r.ok ==> r.message == "" && r.numbers == DateNumbers(parsed.value)
    ensures !r.ok ==> r.numbers == []
    ensures !r.ok ==> (r.message == EmptyDateMessage <==> dateStr == "" || timeStr == "")
    ensures !r.ok ==> (r.message == DateFormatMessage <==> dateStr != "" && timeStr != "")
  {
    if dateStr == "" || timeStr == "" then Validation(false, EmptyDateMessage, [])
    else if parsed.None? then Validation(false, DateFormatMessage, [])
    else Validation(true, "", DateNumbers(parsed.value))
  }

  const TooFewMessage: string := "请输入至少3个汉字"
  const NoStrokesMessage: string := "无法计算汉字笔画数"
  const StrokeErrorPrefix: string := "笔画计算错误: "

  /** What the stroke dictionary gives for a list of characters: counts, or the text of the exception it raised. */
  datatype StrokeLookup = Counts(counts: seq<int>) | Failed(detail: string)

  /** `[c for c in text if '一' <= c <= '鿿']`. */
  function CjkChars(text: string): (r: seq<char>)
    ensures |r| <= |text|
    ensures forall c :: c in r <==> c in text && IsCjk(c)
  {
    KeepMembers(text, IsCjk);
    Keep(text, IsCjk)
  }

  /**
   * The characters kept are the CJK characters of the text in their input
   * order: the kept characters of a concatenation are those of each part in
   * turn, and a text of CJK characters only is kept whole.
   */
  lemma CjkCharsInOrder(a: string, b: string)
    ensures CjkChars(a + b) == CjkChars(a) + CjkChars(b)
    ensures (forall c :: c in a ==> IsCjk(c)) ==> CjkChars(a) == a
  {
    KeepAppend(a, b, IsCjk);
    if forall c :: c in a ==> IsCjk(c) {
      KeepAll(a, IsCjk);
    }
  }

  /**
   * `_validate_chinese`: a text with fewer than three characters, or fewer
   * than three CJK characters, is refused; otherwise the first three CJK
   * characters are passed to `strokes`, and an empty answer or a raised
   * exception is refused with its own message.
   */
  function ValidateChinese(text: string, strokes: seq<char> -> StrokeLookup): (r: Validation)
    ensures r.ok <==> |CjkChars(text)| >= 3 && strokes(CjkChars(text)[..3]).Counts?
                      && strokes(CjkChars(text)[..3]).counts != []
    ensures r.ok ==> r.message == "" && r.numbers == strokes(CjkChars(text)[..3]).counts
    ensures !r.ok ==> r.numbers == []
    ensures r.message == TooFewMessage <==> |CjkChars(text)| < 3
    ensures |CjkChars(text)| >= 3 && strokes(CjkChars(text)[..3]).Failed? ==>
      r.message == StrokeErrorPrefix + strokes(CjkChars(text)[..3]).detail
    ensures |CjkChars(text)| >= 3 && strokes(CjkChars(text)[..3]) == Counts([]) ==> r.message == NoStrokesMessage
  {
    if text == "" || |text| < 3 then Validation(false, TooFewMessage, [])
    else
      var chinese := CjkChars(text);
      if |chinese| < 3 then Validation(false, TooFewMessage, [])
      else
        match strokes(chinese[..3])
        case Failed(detail) =>
          assert (StrokeErrorPrefix + detail)[0] != TooFewMessage[0];
          Validation(false, StrokeErrorPrefix + detail, [])
        case Counts(counts) =>
          if counts == [] then Validation(false, NoStrokesMessage, []) else Validation(true, "", counts)
  }
}

=== FILE: wrappers.dfy ===
/** Failure-carrying result types shared by the model. */
module Wrappers {

  /** A value that may be absent (Python's `None`). */
  datatype Option<+T> = None | Some(value: T)

  /** The Python exceptions the modelled code can raise on malformed input. */
  datatype PyError =
    | IndexError   // a string or list indexed past its end
    | KeyError     // a dictionary lookup of a missing key
    | ValueError   // `list.index` of an absent value

  /** Either a computed value or the exception the source would raise. */
  datatype Result<+T> = Ok(value: T) | Err(error: PyError)
}
